=== FILE: README.md ===
# Paint engine model

A Dafny model of the raster paint engine of the drawing application: the `PaintSimulator`
component in `Assets/Scripts/PaintSimulator.cs`. It draws on a fixed W×H texture that has a
one-level backup. Pressing, holding and releasing the pointer drives eight tools:

- pencil, brush and eraser, which stamp discs along a Bresenham stroke;
- flood fill;
- line, rectangle and circle, which are previewed while dragged and committed on release;
- the eyedropper.

Keyboard shortcuts pick tools, step the brush size, undo (`Ctrl+Z`) and clear (`Ctrl+C`).

The model is value-based. A `Canvas` is an immutable grid of colours indexed `grid[y][x]`.
Every rasteriser is a method that takes a canvas and returns the new one. Its contract says,
pixel by pixel, which pixels change and to what. The component's fields form the `Paint`
record. `HandleInput` and `Update` are methods from one `Paint` to the next.

Modules:

- `Numbers`: `Abs`, `Min`, `Max`, `Clamp` and a few facts about squares.
- `Colors`: colours as four integer channels in thousandths, so 1000 stands for 1.0f. Also
  the 0.01 tolerance test `ColorEquals` and the 28-entry palette.
- `Pixels`: cells, the canvas and the guarded `SetPixel` (`Plot`). An off-canvas write does
  nothing.
- `Stamp`: the disc test `dx² + dy² <= r²`. It holds the two loops every drawing routine
  shares: stamp one disc (`StampDisc`), and stamp a disc at each of a sequence of centres
  (`StampAlong`). A pixel painted by `StampAlong` is one that some centre's disc covers, so
  the order of the centres does not matter.
- `Bresenham`: the integer line walk of `DrawLine` and `DrawShapeLine`. It is given as the
  sequence of cells it visits (`Path`), with the proof that the walk terminates at its end
  cell.
- `Tools`: the `Tool` enum, plus the values that the unchecked cast in `SetTool` produces.
- `Shapes`: `Draw`, `DrawLine`, `DrawShapeLine`, `DrawRectangle` and `DrawCircle`.
- `Fill`: `FloodFill`, with its termination measure. The measure is the number of pixels
  still matching the target, then the queue length. The loop invariant "sealed" says that every neighbour of a
  pixel already filled is off the canvas, no longer matching, or still queued. This gives
  completeness once the queue is empty. In the other direction, ghost paths are recorded for every
  queued and every changed pixel. They show that the fill never leaves the seed's 4-connected
  region of matching pixels.
- `Session`: backup, restore and clear; the setters; the keyboard shortcuts; the pointer
  gesture state machine; `HandleInput`; `Update`; and a frame loop.

Conventions that differ from the C# source:

- Positions are integer cells. After the source's range check at line 135 every accepted
  position is non-negative, so the `(int)` truncation is the floor.
- The pointer is `Off` when any screen, margin or projection check rejects it.
- The circle's floating-point geometry is a parameter. `Trig.radius` gives the circle's
  radius from the anchor cell and the pointer cell, and `Trig.offset` gives the truncated
  `radius·cos` and `radius·sin` offsets. The source's radius is `(int)Vector2.Distance`
  between the untruncated positions, which this model does not keep (see "Left out").
- Time is integer milliseconds. The 0.05 s apply interval becomes 50.
- What the last `canvas.Apply()` showed is the `displayed` canvas. `Synced` says that it
  equals the canvas unless a deferred apply is pending.

The model follows the source's statement order within a frame. It reproduces these details
as written:

- On a pointer-down frame the held branch also runs a zero-length `DrawLine`, which stamps
  the same disc again. `Session.PointerEvents` proves that the press still leaves exactly one
  dab.
- On a pointer-down frame the shape preview runs as well.
- A frame whose pointer leaves the canvas clears `isDrawing` but not `isDrawingShape`. If
  the button is released outside, a stale `isDrawingShape` survives. The next press with a
  non-shape tool is then undone by the preview's restore while the button is held.
  `Session.PointerEvents` states this case: with a non-shape tool the canvas equals the
  backup.
- Release commits the shape onto the canvas as it stands, without restoring the backup
  first (lines 176-186). The canvas still holds the last frame's preview. If the pointer
  moved between the last held frame and the release frame, both the preview shape and the
  committed shape stay on the canvas. `Session.Release` and `Session.PointerEvents` state
  the commit relative to the canvas before the release, not relative to the backup.

## Model

| member | source | states |
|---|---|---|
| `Numbers.Clamp` | Assets/Scripts/PaintSimulator.cs:587 | `Mathf.Clamp(v, lo, hi)` lies in [lo, hi]; it is v when v is in range and the nearer bound otherwise |
| `Colors.ColorEqualsSymmetric` | Assets/Scripts/PaintSimulator.cs:533-539 | the per-channel tolerance test does not depend on argument order |
| `Colors.ColorEqualsReflexive` | Assets/Scripts/PaintSimulator.cs:533-539 | every colour matches itself, so the fill's seed matches its own target |
| `Colors.ColorEqualsNotTransitive` | Assets/Scripts/PaintSimulator.cs:533-539 | the tolerance test is not an equivalence: there are colours a ≈ b and b ≈ c with a ≉ c |
| `Pixels.Canvas.Plot` | Assets/Scripts/PaintSimulator.cs:282-283 | the guarded pixel write that every drawing routine uses (also at lines 293-294, 368-369, 409-410 and 491-492). Reading an in-canvas pixel back after writing it gives the written colour. Every other pixel is unchanged, and a write off the canvas changes nothing. The canvas keeps its size |
| `Pixels.Filled` | Assets/Scripts/PaintSimulator.cs:69-75 | the pixel array filled with one colour has the canvas dimensions and that colour everywhere |
| `Stamp.DiscInsideBox` | Assets/Scripts/PaintSimulator.cs:271-278 | every offset inside a disc of radius² at most size² lies in the loop box [-size, size]², so the box loops reach every pixel of the disc |
| `Stamp.StampDisc` | Assets/Scripts/PaintSimulator.cs:271-284 | a pixel takes the colour exactly when it is inside the canvas and inside the disc around the centre; every other pixel keeps its value, and no write leaves the canvas |
| `Stamp.StampExtends` | Assets/Scripts/PaintSimulator.cs:319-336 | painting wherever the centres cover the pixel and then stamping one more disc is painting wherever the extended centres cover it |
| `Stamp.StampAlong` | Assets/Scripts/PaintSimulator.cs:476-495 | stamping a disc at each centre in turn paints exactly the pixels some centre's disc covers and leaves the rest unchanged |
| `Bresenham.StepArithmetic` | Assets/Scripts/PaintSimulator.cs:325-335 | one `e2` step keeps the error term equal to dx·(1+steps in y) − dy·(1+steps in x), and never steps past the end on either axis |
| `Bresenham.NextMoves` | Assets/Scripts/PaintSimulator.cs:325-335 | a step moves x exactly when `e2 > -dy` and y exactly when `e2 < dx`, by one each, toward the end and never past it; at least one of them moves |
| `Bresenham.NextStaysOnTrack` | Assets/Scripts/PaintSimulator.cs:313-335 | a step keeps the pen inside the start/end box and keeps the error-term invariant |
| `Bresenham.NextOnTrack` | Assets/Scripts/PaintSimulator.cs:319-336 | away from the end cell a step stays on track, moves toward the end, and strictly shrinks the distance left, so the `while (true)` loop terminates |
| `Bresenham.Walk` | Assets/Scripts/PaintSimulator.cs:319-336 | the cells visited from a pen that is on track begin at the pen and end exactly at the end cell |
| `Bresenham.WalkSteps` | Assets/Scripts/PaintSimulator.cs:319-336 | every visited cell lies inside the start/end box, and consecutive cells differ by at most one in each coordinate, toward the end |
| `Bresenham.FirstPen` | Assets/Scripts/PaintSimulator.cs:313-317 | the initial `err = dx - dy` puts the pen on track at the start cell |
| `Bresenham.Path` | Assets/Scripts/PaintSimulator.cs:306-336 | the walk from start to end visits the start cell first and stops at the end cell |
| `Bresenham.PathSteps` | Assets/Scripts/PaintSimulator.cs:344-387 | every cell of a line lies in its bounding box, and each step moves each coordinate by at most one toward the end |
| `Bresenham.NextMajorSteps` | Assets/Scripts/PaintSimulator.cs:325-335 | the error-term bound keeps the major axis moving: every step of a flat line moves x by one, and every step of a steep line moves y by one |
| `Bresenham.WalkLength` | Assets/Scripts/PaintSimulator.cs:319-336 | from a pen within the bound, the walk visits one cell per major-axis step left, plus the end cell |
| `Bresenham.PathLength` | Assets/Scripts/PaintSimulator.cs:306-336 | a line visits exactly max(Abs(dx), Abs(dy)) + 1 cells, so `DrawLine` stamps exactly that many discs |
| `Bresenham.PathOfPoint` | Assets/Scripts/PaintSimulator.cs:319-323 | a zero-length line visits its one cell once |
| `Tools.FromIndex` | Assets/Scripts/PaintSimulator.cs:580-583 | the cast yields a named tool exactly for indices 0..7 |
| `Tools.IndexRoundTrip` | Assets/Scripts/PaintSimulator.cs:25 | the cast keeps the underlying integer: casting back gives the index |
| `Tools.ToolRoundTrip` | Assets/Scripts/PaintSimulator.cs:25 | casting a tool's integer gives the same tool |
| `Shapes.DabFitsItsLoops` | Assets/Scripts/PaintSimulator.cs:265-289 | each tool's disc threshold fits the `[-size, size]` loops of `Draw`, including the pencil's `(b·b)/4` |
| `Shapes.Draw` | Assets/Scripts/PaintSimulator.cs:263-298 | brush: radius² = b²; eraser: radius² = (2b)², painted with the background colour; pencil: radius² = (b·b)/4, truncated. Only in-canvas pixels of the disc change; any other tool changes nothing |
| `Shapes.StampWalk` | Assets/Scripts/PaintSimulator.cs:319-336 | the stroke paints exactly the pixels within the disc of some cell of the Bresenham walk |
| `Shapes.DrawLine` | Assets/Scripts/PaintSimulator.cs:306-336 | a stroke segment paints the tool's disc around every cell of the walk, and nothing for a tool without a dab; a zero-length segment paints exactly one disc |
| `Shapes.DrawShapeLine` | Assets/Scripts/PaintSimulator.cs:344-387 | the line tool paints the current colour within the brush disc of every walk cell, whatever the current tool |
| `Shapes.HorizontalEdges` | Assets/Scripts/PaintSimulator.cs:398-430 | the first loop's centres are exactly the cells of the top and bottom edges |
| `Shapes.VerticalEdges` | Assets/Scripts/PaintSimulator.cs:432-463 | the second loop's centres are exactly the cells of the left and right edges |
| `Shapes.OutlineCentres` | Assets/Scripts/PaintSimulator.cs:392-463 | the rectangle's centres are exactly the border cells of the min/max-normalised box |
| `Shapes.OutlineCentresSymmetric` | Assets/Scripts/PaintSimulator.cs:392-395 | normalising the corners makes the outline independent of which corner is the anchor |
| `Shapes.DrawRectangle` | Assets/Scripts/PaintSimulator.cs:390-464 | a pixel changes, to the current colour, exactly when it is within the brush disc of some border cell of the normalised box |
| `Shapes.CircleSteps` | Assets/Scripts/PaintSimulator.cs:473-474 | the number of points is 4·radius, raised to 360 when smaller |
| `Shapes.CircleCentres` | Assets/Scripts/PaintSimulator.cs:476-480 | the circle is stamped at exactly `CircleSteps(radius)` points, one per angular step and in step order, the i-th at the centre plus the truncated trigonometric offset for step i of that many |
| `Shapes.DrawCircle` | Assets/Scripts/PaintSimulator.cs:466-497 | a pixel changes, to the current colour, exactly when it is within the brush disc of one of the circle's points |
| `Shapes.DrawShape` | Assets/Scripts/PaintSimulator.cs:178-183 | the shape dispatch (on release here, and again for the preview at lines 202-207) paints the selected shape's centres, and changes nothing for a non-shape tool |
| `Fill.MatchingAfterPlot` | Assets/Scripts/PaintSimulator.cs:520-523 | writing the fill colour over a matching pixel removes exactly one matching pixel; this is the fill's termination measure |
| `Fill.MatchingAtMostArea` | Assets/Scripts/PaintSimulator.cs:499-531 | no colour matches more pixels than the canvas has |
| `Fill.SealedAfterSkip` | Assets/Scripts/PaintSimulator.cs:513-516 | dropping an off-canvas or non-matching cell from the queue keeps the fill sealed: every neighbour of a pixel that was already filled is still off the canvas, no longer matching, or waiting in the queue |
| `Fill.SealedAfterFill` | Assets/Scripts/PaintSimulator.cs:518-527 | filling a matching pixel and enqueueing its four neighbours keeps the fill sealed, including for the pixel just filled |
| `Fill.FilledAlongPath` | Assets/Scripts/PaintSimulator.cs:511-528 | once the queue is empty, a sealed fill that holds the fill colour at the start of a path of matching 4-neighbours holds it at every pixel of the path |
| `Fill.LeadsToMatching` | Assets/Scripts/PaintSimulator.cs:518-520 | a queued cell that passes the colour test completes the path of matching 4-neighbours that led to it from the seed |
| `Fill.QueuedAfterSkip` | Assets/Scripts/PaintSimulator.cs:513-516 | dropping the head of the queue leaves every other queued cell with a path from the seed that leads to it |
| `Fill.QueuedAfterFill` | Assets/Scripts/PaintSimulator.cs:524-527 | each of the four neighbours enqueued after a fill is reached by the filled pixel's path, one step longer |
| `Fill.TracedAfterFill` | Assets/Scripts/PaintSimulator.cs:520-523 | after a write, every changed pixel still has a path of matching 4-neighbours from the seed |
| `Fill.Spread` | Assets/Scripts/PaintSimulator.cs:505-530 | the queue loop fills the seed, changes only pixels that matched the seed's colour (to the fill colour), counts exactly the matching pixels it removed and stops after at most 500 000. It gives a path from the seed to every pixel it changed, and unless the budget ran out it leaves no matching pixel next to a changed one |
| `Fill.FloodFill` | Assets/Scripts/PaintSimulator.cs:499-531 | a seed that already matches the fill colour changes nothing. Otherwise the seed gets the fill colour, and every changed pixel matched the seed's original colour, is joined to the seed by a 4-connected path of originally matching pixels, and now holds the fill colour. At most 500 000 pixels, and at most width·height, are written; the count written equals the drop in matching pixels; the loop terminates. When fewer than 500 000 pixels were written, a pixel changes exactly when it is joined to the seed in this way |
| `Session.Init` | Assets/Scripts/PaintSimulator.cs:8-76 | the start state: the canvas filled with the background, brush 5, pencil, black, no gesture, display in sync |
| `Session.BackupCanvas` | Assets/Scripts/PaintSimulator.cs:541-545 | the backup becomes the canvas; nothing else changes |
| `Session.RestoreCanvas` | Assets/Scripts/PaintSimulator.cs:547-551 | the canvas and the display become the backup; nothing else changes |
| `Session.ClearCanvas` | Assets/Scripts/PaintSimulator.cs:553-563 | the backup becomes the old canvas, every pixel becomes the background colour, and the result is displayed |
| `Session.RestoreAfterBackup` | Assets/Scripts/PaintSimulator.cs:541-551 | after a backup, whatever happens to the canvas, a restore gives back the backed-up canvas as long as no other backup intervenes |
| `Session.RestoreAfterClear` | Assets/Scripts/PaintSimulator.cs:553-556 | clearing is undoable: a restore recovers the canvas as it was before the clear |
| `Session.SetColor` | Assets/Scripts/PaintSimulator.cs:574-578 | an index inside the palette selects that colour; any other index leaves the state unchanged |
| `Session.SetTool` | Assets/Scripts/PaintSimulator.cs:580-583 | the tool becomes the cast of the index, named exactly for 0..7, and the index can be read back |
| `Session.SetBrushSize` | Assets/Scripts/PaintSimulator.cs:585-588 | the brush size becomes the requested size clamped to [1, 50]: 1 below the range, 50 above it |
| `Session.HighestDigit` | Assets/Scripts/PaintSimulator.cs:212-219 | the highest pressed digit key from n to 8, or 0 exactly when none of them is pressed |
| `Session.DigitKeys` | Assets/Scripts/PaintSimulator.cs:212-219 | the eight overriding assignments leave the tool of the highest pressed digit key; with no digit pressed the tool is kept |
| `Session.BrushKeys` | Assets/Scripts/PaintSimulator.cs:221-224 | the brush keys keep the size within [1, 50] |
| `Session.BrushKeysSaturate` | Assets/Scripts/PaintSimulator.cs:221-224 | for any set of keys: a `+` key (`+`, keypad `+` or `=`) alone gives min(b+2, 50); a `-` key (`-` or keypad `-`) alone gives max(b−2, 1); both give min(b, 48); neither leaves b. Keys other than these five do not change the result |
| `Session.EditKeys` | Assets/Scripts/PaintSimulator.cs:226-233 | `Ctrl+Z` restores the backup, `Ctrl+C` backs up and clears to the background, `Ctrl+S` changes no state, and without Ctrl nothing changes |
| `Session.Shortcuts` | Assets/Scripts/PaintSimulator.cs:211-233 | the shortcut block sets the tool and the brush size from the keys. `Ctrl+Z` puts the backup on the canvas and display. `Ctrl+C` leaves every pixel the background, displayed, with the backup the pre-clear canvas, or the backup itself when `Ctrl+Z` came first. The colour, the gesture flags and the backup otherwise stay |
| `Session.Press` | Assets/Scripts/PaintSimulator.cs:141-166 | pointer-down backs up and records the position. Then, by tool: shapes anchor; fill fills and displays; the eyedropper reads the pixel without drawing; every other tool starts a stroke and defers the apply, the pencil, brush and eraser stamping exactly one dab |
| `Session.Hold` | Assets/Scripts/PaintSimulator.cs:168-172 | while a stroke is on, the held button strokes from the last position to this one and defers the apply; otherwise nothing happens |
| `Session.Release` | Assets/Scripts/PaintSimulator.cs:174-195 | release commits a pending shape onto the canvas and displays it, flushes a stroke, and ends both gestures |
| `Session.Preview` | Assets/Scripts/PaintSimulator.cs:197-207 | while a shape is dragged, the canvas is the backup with the shape drawn over it, and it is displayed |
| `Session.PointerEvents` | Assets/Scripts/PaintSimulator.cs:141-207 | pointer-down always backs up first, and only a press changes the backup. The eyedropper sets the colour and leaves the canvas alone. A freehand press paints exactly one dab. A drag of a stroke paints the tool's dab along the walk from the last position. A fill press changes only pixels that matched the pressed pixel, to the current colour. A shape drag previews over the backup. Pressing with a stroke tool, or dragging while a stroke is on, leaves an apply pending. After release neither gesture is on, and a stroke's release leaves the display up to date with no apply pending |
| `Session.HandleInput` | Assets/Scripts/PaintSimulator.cs:103-233 | a pointer off the canvas only clears `isDrawing`, keeping `isDrawingShape`; the shortcuts then do not run either. Otherwise the pointer branches run, then the shortcuts. Only a press or `Ctrl+C` changes the backup. A press backs up the canvas; `Ctrl+Z` leaves the canvas equal to the backup. `Ctrl+C` on the canvas clears it to the background and displays it. A drag of a stroke without `Ctrl+Z` or `Ctrl+C` paints the segment from the last position. A freehand stroke frame leaves an apply pending. The display stays in sync unless an apply is pending |
| `Session.Update` | Assets/Scripts/PaintSimulator.cs:89-101 | changes are applied in batches. A flush happens only when more than 50 ms have passed since the last one, and it stamps the current time and brings the display up to date. During a freehand stroke the apply is flushed exactly when 50 ms have passed, and otherwise stays pending. A frame off the canvas with no flush due only clears `isDrawing`. After every frame the display is in sync unless an apply is pending, and a pending apply dates from a flush at most 50 ms ago. Only a press or `Ctrl+C` changes the backup; a press backs up the canvas and `Ctrl+Z` leaves the canvas equal to the backup |
| `Session.Run` | Assets/Scripts/PaintSimulator.cs:89-101 | over frames without a press or `Ctrl+C` the backup survives. A stroke that begins with a press, continues without another press or clear, and ends with `Ctrl+Z` on the canvas gives back exactly the canvas from before the stroke |

## Left out

- Unity rendering: `Texture2D.Apply`, sprite creation (lines 78-86) and the `SpriteRenderer`. Apply is modelled only as copying the canvas into `displayed`.
- `GetCanvasMousePosition` (lines 236-261) and the screen and margin checks (lines 107-124). This is floating-point world-to-canvas projection over camera state. Every rejection becomes the `Off` pointer.
- The guard `mainCamera == null` in `Start` and `Update`. It depends on scene setup; the model takes the camera as present.
- `DrawCircle`'s `Vector2.Distance`, `Mathf.Cos` and `Mathf.Sin`. They are floating point and are passed in as the `Trig` parameter. The point count and the stamping are modelled.
- Sub-cell pointer positions. The model keeps only the truncated cell of each position. Lines and rectangles truncate their end points, so nothing changes for them. `DrawCircle` takes its radius from the distance between the untruncated anchor and pointer positions, so the true radius can differ by up to two between two gestures over the same pair of cells. For the cells (10, 10) and (20, 10) it can be 9, 10 or 11: the anchor (10.9, 10.9) with the pointer (20.0, 10.9) gives 9, and the anchor (10.0, 10.0) with the pointer (20.99, 10.99) gives 11. The model's `Trig.radius` is one function of the two cells, and `Session.Run` uses one `Trig` for every frame, so it fixes one radius per pair of cells.
- Colour floats and the texture's 8-bit storage. Channels are integers in thousandths, and the 0.01 tolerance is 10 of them. Rounding a written colour to 8 bits per channel is not modelled.
- The first contents of the backup texture, which a new `Texture2D` fills with Unity's default. `Session.Init` takes them as a parameter.
- `SaveImage` (lines 565-572). It does PNG encoding, date formatting and a file write. `Ctrl+S` leaves the model's state unchanged.
- The getters `GetCurrentToolName`, `GetBrushSize`, `GetCurrentColor` and `GetColorPalette` (lines 591-594). They only read fields.
- `Fill.FloodFill`: completeness (every pixel joined to the seed by a 4-connected path of matching pixels gets the fill colour) is stated only when fewer than 500 000 pixels were written. When the budget ends the loop, the model states only that every changed pixel lies in the seed's region, not which part of the region was reached.
- An out-of-range brush size. The state invariant keeps `brushSize` in [1, 50]: every path through the component keeps it there, but the inspector could set the public field to any value.
- Everything outside `PaintSimulator.cs` is not part of this model: UI wiring, the UDP receiver, hand tracking, cursor scripts and the mini-games.

=== FILE: bresenham.dfy ===
/** The integer Bresenham walk shared by `DrawLine` and `DrawShapeLine`: starting at the
    truncated start cell, each step moves x and/or y by one towards the end cell, until
    the end cell is reached. */
module Bresenham {

  import opened Numbers
  import opened Pixels

  /** The walker's position and error term, the locals `x0`, `y0` and `err` of the source. */
  datatype Pen = Pen(x: int, y: int, err: int)

  /** `sx = x0 < x1 ? 1 : -1` (and likewise `sy`). */
  function Direction(from: int, to: int): int
  {
    if from < to then 1 else -1
  }

  /** v lies on the closed interval between a and b, whichever is smaller. */
  predicate Between(a: int, v: int, b: int)
  {
    Min(a, b) <= v <= Max(a, b)
  }

  /** a * n, written as repeated addition so that the error term below stays linear for the
      solver everywhere except in `StepArithmetic`, which converts it with `TimesIsProduct`. */
  function Times(a: int, n: nat): int
  {
    if n == 0 then 0 else Times(a, n - 1) + a
  }

  lemma {:induction false} TimesIsProduct(a: int, n: nat)
    ensures Times(a, n) == a * n
  {
    if n > 0 {
      TimesIsProduct(a, n - 1);
    }
  }

  /** A pen that has made X steps in x and Y steps in y from `start` without passing `end`
      carries err == dx * (1 + Y) - dy * (1 + X); initially err == dx - dy. */
  predicate OnTrack(start: Cell, end: Cell, p: Pen)
  {
    var dx: int, dy: int := Abs(end.x - start.x), Abs(end.y - start.y);
    && Between(start.x, p.x, end.x)
    && Between(start.y, p.y, end.y)
    && p.err == Times(dx, 1 + Abs(p.y - start.y)) - Times(dy, 1 + Abs(p.x - start.x))
  }

  /** One iteration of the loop body after the end test: `e2 = 2 * err`, then the x step
      when `e2 > -dy` and the y step when `e2 < dx`, both decided by the same e2. */
  function Next(start: Cell, end: Cell, p: Pen): Pen
  {
    var dx: int, dy: int := Abs(end.x - start.x), Abs(end.y - start.y);
    var e2 := 2 * p.err;
    var q := if e2 > -dy then Pen(p.x + Direction(start.x, end.x), p.y, p.err - dy) else p;
    if e2 < dx then Pen(q.x, q.y + Direction(start.y, end.y), q.err + dx) else q
  }

  /** q is one step from p: each coordinate moves by at most one, at least one moves, and
      neither moves away from `end`. */
  predicate StepToward(p: Cell, q: Cell, end: Cell)
  {
    && p != q
    && Abs(q.x - p.x) <= 1 && Abs(q.y - p.y) <= 1
    && Abs(end.x - q.x) <= Abs(end.x - p.x)
    && Abs(end.y - q.y) <= Abs(end.y - p.y)
  }

  function Distance(end: Cell, p: Pen): nat
  {
    Abs(end.x - p.x) + Abs(end.y - p.y)
  }

  /** The error-term arithmetic of one step, on step counts: with sx steps made in x and sy
      in y, an x step is taken only before sx reaches dx, a y step only before sy reaches dy,
      at least one is taken, and the updated error term keeps its closed form. */
  lemma StepArithmetic(dx: int, dy: int, sx: nat, sy: nat, err: int)
    requires sx <= dx && sy <= dy && (sx < dx || sy < dy)
    requires err == Times(dx, 1 + sy) - Times(dy, 1 + sx)
    ensures 2 * err > -dy ==> sx < dx
    ensures 2 * err < dx ==> sy < dy
    ensures 2 * err > -dy || 2 * err < dx
    ensures err - dy == Times(dx, 1 + sy) - Times(dy, 1 + (sx + 1))
    ensures err + dx == Times(dx, 1 + (sy + 1)) - Times(dy, 1 + sx)
    ensures err - dy + dx == Times(dx, 1 + (sy + 1)) - Times(dy, 1 + (sx + 1))
  {
    TimesIsProduct(dx, 1 + sy);
    TimesIsProduct(dy, 1 + sx);
    if sx == dx {
      MulMonotone(dx, 1 + sy, dy);
      assert dy * (1 + dx) == dy + dx * dy;
    }
    if sy == dy {
      MulMonotone(dy, 1 + sx, dx);
      assert dx * (1 + dy) == dx + dx * dy;
    }
  }

  /** How one step changes the pen, in terms of the step counts `Abs(x - start.x)` and
      `Abs(y - start.y)`: x moves iff `e2 > -dy`, y moves iff `e2 < dx`, never past the end. */
  lemma NextMoves(start: Cell, end: Cell, p: Pen)
    requires OnTrack(start, end, p)
    requires p.x != end.x || p.y != end.y
    ensures var dx: int, dy: int := Abs(end.x - start.x), Abs(end.y - start.y);
            var q, e2 := Next(start, end, p), 2 * p.err;
            && (e2 > -dy || e2 < dx)
            && Between(start.x, q.x, end.x) && Between(start.y, q.y, end.y)
            && Abs(q.x - start.x) == Abs(p.x - start.x) + (if e2 > -dy then 1 else 0)
            && Abs(q.y - start.y) == Abs(p.y - start.y) + (if e2 < dx then 1 else 0)
            && Abs(end.x - q.x) + (if e2 > -dy then 1 else 0) == Abs(end.x - p.x)
            && Abs(end.y - q.y) + (if e2 < dx then 1 else 0) == Abs(end.y - p.y)
            && q.err == p.err - (if e2 > -dy then dy else 0) + (if e2 < dx then dx else 0)
  {
    var dx: int, dy: int := Abs(end.x - start.x), Abs(end.y - start.y);
    var sx, sy := Abs(p.x - start.x), Abs(p.y - start.y);
    assert sx == dx <==> p.x == end.x;
    assert sy == dy <==> p.y == end.y;
    StepArithmetic(dx, dy, sx, sy, p.err);
  }

  lemma NextStaysOnTrack(start: Cell, end: Cell, p: Pen)
    requires OnTrack(start, end, p)
    requires p.x != end.x || p.y != end.y
    ensures OnTrack(start, end, Next(start, end, p))
  {
    NextMoves(start, end, p);
    var dx: int, dy: int := Abs(end.x - start.x), Abs(end.y - start.y);
    var sx, sy := Abs(p.x - start.x), Abs(p.y - start.y);
    StepArithmetic(dx, dy, sx, sy, p.err);
    var q := Next(start, end, p);
    if 2 * p.err > -dy && 2 * p.err < dx {
      assert q.err == Times(dx, 1 + (sy + 1)) - Times(dy, 1 + (sx + 1));
    } else if 2 * p.err > -dy {
      assert q.err == Times(dx, 1 + sy) - Times(dy, 1 + (sx + 1));
    } else {
      assert q.err == Times(dx, 1 + (sy + 1)) - Times(dy, 1 + sx);
    }
  }

  /** A pen on track and not yet at the end stays on track, moves one step towards the end,
      and so gets strictly closer to it: the walk never overshoots and always terminates. */
  lemma NextOnTrack(start: Cell, end: Cell, p: Pen)
    requires OnTrack(start, end, p)
    requires p.x != end.x || p.y != end.y
    ensures OnTrack(start, end, Next(start, end, p))
    ensures StepToward(Cell(p.x, p.y), Cell(Next(start, end, p).x, Next(start, end, p).y), end)
    ensures Distance(end, Next(start, end, p)) < Distance(end, p)
  {
    NextStaysOnTrack(start, end, p);
    NextMoves(start, end, p);
  }

  /** The cells visited from pen `p` on, the end cell included. */
  function Walk(start: Cell, end: Cell, p: Pen): (path: seq<Cell>)
    requires OnTrack(start, end, p)
    ensures 1 <= |path| && path[0] == Cell(p.x, p.y) && path[|path| - 1] == end
    decreases Distance(end, p)
  {
    if p.x == end.x && p.y == end.y then
      [Cell(p.x, p.y)]
    else
      NextOnTrack(start, end, p);
      [Cell(p.x, p.y)] + Walk(start, end, Next(start, end, p))
  }

  /** Every cell of `path` lies in the bounding box of the line from `start` to `end`. */
  predicate InBox(start: Cell, end: Cell, path: seq<Cell>)
  {
    forall k :: 0 <= k < |path| ==> Between(start.x, path[k].x, end.x) && Between(start.y, path[k].y, end.y)
  }

  /** Consecutive cells of `path` are one step apart, towards `end`. */
  predicate Stepwise(path: seq<Cell>, end: Cell)
  {
    forall k :: 0 <= k < |path| - 1 ==> StepToward(path[k], path[k + 1], end)
  }

  lemma {:induction false} WalkSteps(start: Cell, end: Cell, p: Pen)
    requires OnTrack(start, end, p)
    ensures InBox(start, end, Walk(start, end, p))
    ensures Stepwise(Walk(start, end, p), end)
    decreases Distance(end, p)
  {
    if !(p.x == end.x && p.y == end.y) {
      NextOnTrack(start, end, p);
      var q := Next(start, end, p);
      WalkSteps(start, end, q);
      var rest := Walk(start, end, q);
      var path := [Cell(p.x, p.y)] + rest;
      assert Walk(start, end, p) == path;
      assert forall k :: 1 <= k < |path| ==> path[k] == rest[k - 1];
      assert StepToward(path[0], path[1], end);
    }
  }

  /** The cells `DrawLine(start, end)` visits, in order: the start cell first, the end cell last. */
  function Path(start: Cell, end: Cell): (path: seq<Cell>)
    ensures 1 <= |path| && path[0] == start && path[|path| - 1] == end
  {
    Walk(start, end, FirstPen(start, end))
  }

  /** The walk has no gaps and never leaves the line's bounding box: consecutive cells differ
      by at most one in each coordinate, and neither coordinate moves away from the end. */
  lemma PathSteps(start: Cell, end: Cell)
    ensures InBox(start, end, Path(start, end))
    ensures Stepwise(Path(start, end), end)
  {
    WalkSteps(start, end, FirstPen(start, end));
  }

  /** The pen before the first iteration: at the start cell with `err = dx - dy`. */
  function FirstPen(start: Cell, end: Cell): (p: Pen)
    ensures OnTrack(start, end, p)
  {
    Pen(start.x, start.y, Abs(end.x - start.x) - Abs(end.y - start.y))
  }

  /** A zero-length line visits its one cell once. */
  lemma PathOfPoint(p: Cell)
    ensures Path(p, p) == [p]
  {
  }

  /** The bound on the error term that makes the major axis step on every iteration: for a
      line at most 45 degrees from the x axis `2 * err > -dy` (and `err == 0` on a diagonal),
      for a steeper line `2 * err < dx`. */
  predicate MajorSteps(start: Cell, end: Cell, p: Pen)
  {
    var dx: int, dy: int := Abs(end.x - start.x), Abs(end.y - start.y);
    && (dy <= dx && 0 < dx ==> -dy < 2 * p.err && (dx == dy ==> p.err == 0))
    && (dx < dy ==> 2 * p.err < dx)
  }

  /** The number of cells left on the major axis. */
  function MajorLeft(start: Cell, end: Cell, p: Pen): nat
  {
    if Abs(end.y - start.y) <= Abs(end.x - start.x) then Abs(end.x - p.x) else Abs(end.y - p.y)
  }

  /** A step keeps the bound, and the major axis moves on every step. */
  lemma NextMajorSteps(start: Cell, end: Cell, p: Pen)
    requires OnTrack(start, end, p) && MajorSteps(start, end, p)
    requires p.x != end.x || p.y != end.y
    ensures MajorSteps(start, end, Next(start, end, p))
    ensures MajorLeft(start, end, Next(start, end, p)) + 1 == MajorLeft(start, end, p)
  {
    NextMoves(start, end, p);
  }

  lemma {:induction false} WalkLength(start: Cell, end: Cell, p: Pen)
    requires OnTrack(start, end, p) && MajorSteps(start, end, p)
    ensures |Walk(start, end, p)| == MajorLeft(start, end, p) + 1
    decreases Distance(end, p)
  {
    if !(p.x == end.x && p.y == end.y) {
      NextOnTrack(start, end, p);
      NextMajorSteps(start, end, p);
      WalkLength(start, end, Next(start, end, p));
    }
  }

  /** A line visits exactly max(|dx|, |dy|) + 1 cells: one per column of a flat line, one per
      row of a steep one, so `DrawLine` stamps that many discs. */
  lemma PathLength(start: Cell, end: Cell)
    ensures |Path(start, end)| == Max(Abs(end.x - start.x), Abs(end.y - start.y)) + 1
  {
    WalkLength(start, end, FirstPen(start, end));
  }
}

=== FILE: colors.dfy ===
/** Colours of the paint engine and its tolerant colour comparison. */
module Colors {

  import opened Numbers

  /** Channel values are fixed-point thousandths: `Unit` stands for the float 1.0f. */
  const Unit: int := 1000

  /** `ColorEquals` accepts a per-channel difference strictly below 0.01f, i.e. 10 thousandths. */
  const Tolerance: int := 10

  datatype Color = Color(r: int, g: int, b: int, a: int)

  /** `new Color(r, g, b)`: an opaque colour. */
  function Rgb(r: int, g: int, b: int): Color
  {
    Color(r, g, b, Unit)
  }

  const Black: Color := Rgb(0, 0, 0)
  const White: Color := Rgb(Unit, Unit, Unit)

  predicate Close(u: int, v: int)
  {
    Abs(u - v) < Tolerance
  }

  /** The per-channel tolerance test of the source: symmetric and reflexive, not transitive. */
  predicate ColorEquals(p: Color, q: Color)
  {
    Close(p.r, q.r) && Close(p.g, q.g) && Close(p.b, q.b) && Close(p.a, q.a)
  }

  lemma ColorEqualsSymmetric(p: Color, q: Color)
    ensures ColorEquals(p, q) <==> ColorEquals(q, p)
  {
  }

  lemma ColorEqualsReflexive(p: Color)
    ensures ColorEquals(p, p)
  {
  }

  /** The tolerance does not chain: two colours can each match a third and still differ.
      This is why flood fill compares every pixel with the seed's colour, not with its neighbour. */
  lemma ColorEqualsNotTransitive()
    ensures exists p: Color, q: Color, s: Color :: ColorEquals(p, q) && ColorEquals(q, s) && !ColorEquals(p, s)
  {
    var p, q, s := Rgb(0, 0, 0), Rgb(Tolerance - 1, 0, 0), Rgb(2 * Tolerance - 2, 0, 0);
    assert ColorEquals(p, q) && ColorEquals(q, s) && !ColorEquals(p, s);
  }

  /** The 28-entry palette that `SetColor` indexes. Unity's `Color.yellow` is (1, 0.92, 0.016, 1). */
  const Palette: seq<Color> := [
    Black, Rgb(500, 500, 500), Rgb(500, 0, 0), Rgb(500, 250, 0),
    Rgb(500, 500, 0), Rgb(0, 500, 0), Rgb(0, 500, 500), Rgb(0, 0, 500),
    Rgb(250, 0, 500), Rgb(500, 0, 500),
    White, Rgb(750, 750, 750), Rgb(Unit, 0, 0), Rgb(Unit, 500, 0),
    Rgb(Unit, 920, 16), Rgb(0, Unit, 0), Rgb(0, Unit, Unit), Rgb(0, 0, Unit),
    Rgb(500, 0, Unit), Rgb(Unit, 0, Unit),
    Rgb(Unit, 750, 800), Rgb(600, 400, 200), Rgb(Unit, 900, 600), Rgb(800, Unit, 800),
    Rgb(600, Unit, Unit), Rgb(800, 800, Unit), Rgb(Unit, 800, Unit), Rgb(Unit, 600, 600)
  ]
}

=== FILE: fill.dfy ===
/** `FloodFill`: a 4-connected breadth-first fill from a seed pixel, comparing every pixel
    with the colour the seed had, and stopping after `MaxFill` writes. */
module Fill {

  import opened Colors
  import opened Pixels

  /** `maxFill`: the most pixels one fill writes. */
  const MaxFill: nat := 500000

  /** The number of colours in `row` that `ColorEquals` the target. */
  function CountRow(row: seq<Color>, target: Color): nat
  {
    if |row| == 0 then 0
    else (if ColorEquals(row[0], target) then 1 else 0) + CountRow(row[1..], target)
  }

  function CountRows(rows: seq<seq<Color>>, target: Color): nat
  {
    if |rows| == 0 then 0 else CountRow(rows[0], target) + CountRows(rows[1..], target)
  }

  /** The number of pixels of the canvas that `ColorEquals` the target. */
  function Matching(c: Canvas, target: Color): nat
  {
    CountRows(c.grid, target)
  }

  lemma {:induction false} CountRowUpdate(row: seq<Color>, x: nat, v: Color, target: Color)
    requires x < |row| && ColorEquals(row[x], target) && !ColorEquals(v, target)
    ensures CountRow(row[x := v], target) + 1 == CountRow(row, target)
  {
    if x > 0 {
      assert row[x := v][1..] == row[1..][x - 1 := v];
      CountRowUpdate(row[1..], x - 1, v, target);
    }
  }

  lemma {:induction false} CountRowsUpdate(rows: seq<seq<Color>>, y: nat, x: nat, v: Color, target: Color)
    requires y < |rows| && x < |rows[y]| && ColorEquals(rows[y][x], target) && !ColorEquals(v, target)
    ensures CountRows(rows[y := rows[y][x := v]], target) + 1 == CountRows(rows, target)
  {
    if y == 0 {
      CountRowUpdate(rows[0], x, v, target);
      assert rows[y := rows[y][x := v]][1..] == rows[1..];
    } else {
      assert rows[y := rows[y][x := v]][1..] == rows[1..][y - 1 := rows[y][x := v]];
      CountRowsUpdate(rows[1..], y - 1, x, v, target);
    }
  }

  /** Overwriting a matching pixel with a colour that does not match removes exactly one
      matching pixel: the measure that makes the fill loop terminate. */
  lemma MatchingAfterPlot(c: Canvas, x: int, y: int, v: Color, target: Color)
    requires c.Valid() && c.InBounds(x, y)
    requires ColorEquals(c.Get(x, y), target) && !ColorEquals(v, target)
    ensures Matching(c.Plot(x, y, v), target) + 1 == Matching(c, target)
  {
    CountRowsUpdate(c.grid, y, x, v, target);
  }

  lemma {:induction false} CountRowAtMostLength(row: seq<Color>, target: Color)
    ensures CountRow(row, target) <= |row|
  {
    if |row| > 0 {
      CountRowAtMostLength(row[1..], target);
    }
  }

  lemma {:induction false} CountRowsAtMostArea(rows: seq<seq<Color>>, width: nat, target: Color)
    requires forall y :: 0 <= y < |rows| ==> |rows[y]| == width
    ensures CountRows(rows, target) <= |rows| * width
  {
    if |rows| > 0 {
      CountRowAtMostLength(rows[0], target);
      CountRowsAtMostArea(rows[1..], width, target);
      assert |rows| * width == width + (|rows| - 1) * width;
    }
  }

  /** No colour matches more pixels than the canvas has. */
  lemma MatchingAtMostArea(c: Canvas, target: Color)
    requires c.Valid()
    ensures Matching(c, target) <= c.width * c.height
  {
    CountRowsAtMostArea(c.grid, c.width, target);
    assert c.height * c.width == c.width * c.height;
  }

  /** The four neighbours in the order the source enqueues them. */
  function Neighbours(p: Cell): seq<Cell>
  {
    [Cell(p.x + 1, p.y), Cell(p.x - 1, p.y), Cell(p.x, p.y + 1), Cell(p.x, p.y - 1)]
  }

  /** p cannot leak the fill: it is off the canvas, does not match the target, or is still
      waiting in the queue. */
  predicate Blocked(r: Canvas, target: Color, p: Cell, queue: seq<Cell>)
    requires r.Valid()
  {
    !r.InBounds(p.x, p.y) || !ColorEquals(r.Get(p.x, p.y), target) || p in queue
  }

  /** All four neighbours of p are blocked. */
  predicate Enclosed(r: Canvas, target: Color, p: Cell, queue: seq<Cell>)
    requires r.Valid()
  {
    forall nb :: nb in Neighbours(p) ==> Blocked(r, target, nb, queue)
  }

  /** Every pixel the fill changed is enclosed: with an empty queue, no matching pixel lies
      next to a filled one. */
  ghost predicate Sealed(c: Canvas, r: Canvas, target: Color, queue: seq<Cell>)
    requires c.Valid() && r.Valid() && SameShape(r, c)
  {
    forall px, py :: c.InBounds(px, py) && r.Get(px, py) != c.Get(px, py) ==> Enclosed(r, target, Cell(px, py), queue)
  }

  /** A 4-connected path of in-canvas pixels that all match the target. */
  predicate MatchingPath(c: Canvas, target: Color, path: seq<Cell>)
    requires c.Valid()
  {
    && (forall k :: 0 <= k < |path| ==>
          c.InBounds(path[k].x, path[k].y) && ColorEquals(c.Get(path[k].x, path[k].y), target))
    && (forall k :: 0 <= k < |path| - 1 ==> path[k + 1] in Neighbours(path[k]))
  }

  /** A sealed fill that starts a matching path reaches its every pixel: each next pixel is a
      matching neighbour of a filled one, so it cannot have been left behind. */
  lemma {:induction false} FilledAlongPath(c: Canvas, r: Canvas, target: Color, fill: Color, path: seq<Cell>)
    requires c.Valid() && r.Valid() && SameShape(r, c) && !ColorEquals(fill, target)
    requires Sealed(c, r, target, [])
    requires forall px, py :: c.InBounds(px, py) ==> r.Get(px, py) == c.Get(px, py) || r.Get(px, py) == fill
    requires MatchingPath(c, target, path) && 0 < |path| && r.Get(path[0].x, path[0].y) == fill
    ensures forall k :: 0 <= k < |path| ==> r.Get(path[k].x, path[k].y) == fill
    decreases |path|
  {
    if 1 < |path| {
      var init := path[..|path| - 1];
      assert MatchingPath(c, target, init);
      FilledAlongPath(c, r, target, fill, init);
      var a, b := path[|path| - 2], path[|path| - 1];
      assert r.Get(a.x, a.y) == fill && r.Get(a.x, a.y) != c.Get(a.x, a.y);
      assert Enclosed(r, target, a, []);
      assert Blocked(r, target, b, []);
      assert forall k :: 0 <= k < |path| - 1 ==> path[k] == init[k];
    }
  }

  /** `path` runs from `seed` to `p` through matching 4-neighbours. */
  predicate PathFrom(c: Canvas, target: Color, seed: Cell, p: Cell, path: seq<Cell>)
    requires c.Valid()
  {
    MatchingPath(c, target, path) && 0 < |path| && path[0] == seed && path[|path| - 1] == p
  }

  /** p is in the seed's 4-connected region of pixels matching the target. */
  ghost predicate Connected(c: Canvas, target: Color, seed: Cell, p: Cell)
    requires c.Valid()
  {
    exists path :: PathFrom(c, target, seed, p, path)
  }

  /** `path` runs from `seed` to `p`, every step between 4-neighbours, and every cell before
      `p` matches: how a queued cell was reached. */
  predicate Leads(c: Canvas, target: Color, seed: Cell, p: Cell, path: seq<Cell>)
    requires c.Valid()
  {
    && 0 < |path| && path[0] == seed && path[|path| - 1] == p
    && MatchingPath(c, target, path[..|path| - 1])
    && (1 < |path| ==> p in Neighbours(path[|path| - 2]))
  }

  /** Each queued cell has a path in `trails`, at the same position, that leads to it. */
  predicate Queued(c: Canvas, target: Color, seed: Cell, queue: seq<Cell>, trails: seq<seq<Cell>>)
    requires c.Valid()
  {
    |trails| == |queue| && forall k :: 0 <= k < |queue| ==> Leads(c, target, seed, queue[k], trails[k])
  }

  /** Each pixel the fill changed has, in `paths`, a path from the seed that reaches it. */
  ghost predicate Traced(c: Canvas, r: Canvas, target: Color, seed: Cell, paths: map<Cell, seq<Cell>>)
    requires c.Valid() && r.Valid() && SameShape(r, c)
  {
    forall px, py :: c.InBounds(px, py) && r.Get(px, py) != c.Get(px, py) ==>
      Cell(px, py) in paths && PathFrom(c, target, seed, Cell(px, py), paths[Cell(px, py)])
  }

  /** The trails of the cells enqueued after `p`: its own path, one cell longer. */
  function Extend(path: seq<Cell>, cells: seq<Cell>): (r: seq<seq<Cell>>)
    ensures |r| == |cells| && forall i :: 0 <= i < |cells| ==> r[i] == path + [cells[i]]
  {
    seq(|cells|, i requires 0 <= i < |cells| => path + [cells[i]])
  }

  /** A queued cell that matches completes the path that led to it. */
  lemma LeadsToMatching(c: Canvas, target: Color, seed: Cell, p: Cell, path: seq<Cell>)
    requires c.Valid() && Leads(c, target, seed, p, path)
    requires c.InBounds(p.x, p.y) && ColorEquals(c.Get(p.x, p.y), target)
    ensures PathFrom(c, target, seed, p, path)
  {
    var init := path[..|path| - 1];
    assert forall k :: 0 <= k < |path| - 1 ==> path[k] == init[k];
  }

  /** Dropping the head of the queue drops its trail. */
  lemma QueuedAfterSkip(c: Canvas, target: Color, seed: Cell, queue: seq<Cell>, trails: seq<seq<Cell>>)
    requires c.Valid() && 0 < |queue| && Queued(c, target, seed, queue, trails)
    ensures Queued(c, target, seed, queue[1..], trails[1..])
  {
    forall k | 0 <= k < |queue| - 1
      ensures Leads(c, target, seed, queue[1..][k], trails[1..][k])
    {
      assert queue[1..][k] == queue[k + 1] && trails[1..][k] == trails[k + 1];
    }
  }

  /** Filling the head of the queue gives each of its four neighbours a trail through it. */
  lemma QueuedAfterFill(c: Canvas, target: Color, seed: Cell, queue: seq<Cell>, trails: seq<seq<Cell>>)
    requires c.Valid() && 0 < |queue| && Queued(c, target, seed, queue, trails)
    requires PathFrom(c, target, seed, queue[0], trails[0])
    ensures Queued(c, target, seed, queue[1..] + Neighbours(queue[0]), trails[1..] + Extend(trails[0], Neighbours(queue[0])))
  {
    QueuedAfterSkip(c, target, seed, queue, trails);
    var t := trails[0];
    var nbs := Neighbours(queue[0]);
    var queue', trails' := queue[1..] + nbs, trails[1..] + Extend(t, nbs);
    forall k | 0 <= k < |queue'|
      ensures Leads(c, target, seed, queue'[k], trails'[k])
    {
      if k < |queue| - 1 {
        assert queue'[k] == queue[1..][k] && trails'[k] == trails[1..][k];
      } else {
        var nb := nbs[k - (|queue| - 1)];
        assert queue'[k] == nb && trails'[k] == t + [nb];
        assert (t + [nb])[..|t|] == t;
      }
    }
  }

  /** Filling a matching pixel reached by `path` records that path for it. */
  lemma TracedAfterFill(c: Canvas, r: Canvas, target: Color, fill: Color, seed: Cell, paths: map<Cell, seq<Cell>>, p: Cell, path: seq<Cell>)
    requires c.Valid() && r.Valid() && SameShape(r, c) && r.InBounds(p.x, p.y)
    requires r.Get(p.x, p.y) == c.Get(p.x, p.y) && r.Get(p.x, p.y) != fill
    requires Traced(c, r, target, seed, paths) && PathFrom(c, target, seed, p, path)
    ensures Traced(c, r.Plot(p.x, p.y, fill), target, seed, paths[p := path])
  {
  }

  /** `FloodFill(x, y, fillColor)`, also returning its local `fillCount`.
      If the seed already matches the fill colour nothing happens. Otherwise the fill changes
      only pixels of the seed's 4-connected region of matching pixels, to the fill colour, the
      seed first; it writes at most `MaxFill` pixels, and `filled` is the number of matching
      pixels it removed. Unless the budget ran out, it changes the whole region. */
  method FloodFill(c: Canvas, x: int, y: int, fill: Color) returns (r: Canvas, filled: nat)
    requires c.Valid() && c.InBounds(x, y)
    ensures r.Valid() && SameShape(r, c)
    ensures ColorEquals(c.Get(x, y), fill) ==> r == c && filled == 0
    ensures !ColorEquals(c.Get(x, y), fill) ==> r.Get(x, y) == fill && 1 <= filled
    ensures filled <= MaxFill && filled <= c.width * c.height
    ensures forall px, py :: c.InBounds(px, py) ==>
              r.Get(px, py) == c.Get(px, py) || (ColorEquals(c.Get(px, py), c.Get(x, y)) && r.Get(px, py) == fill)
    ensures filled + Matching(r, c.Get(x, y)) == Matching(c, c.Get(x, y))
    ensures filled < MaxFill ==> Sealed(c, r, c.Get(x, y), [])
    ensures filled < MaxFill && !ColorEquals(c.Get(x, y), fill) ==>
              forall px, py :: c.InBounds(px, py) ==>
                (r.Get(px, py) != c.Get(px, py) <==> Connected(c, c.Get(x, y), Cell(x, y), Cell(px, py)))
    ensures forall px, py :: c.InBounds(px, py) && r.Get(px, py) != c.Get(px, py) ==>
              Connected(c, c.Get(x, y), Cell(x, y), Cell(px, py))
  {
    var target := c.Get(x, y);
    r, filled := c, 0;
    if ColorEquals(target, fill) {
      return;
    }
    ColorEqualsSymmetric(target, fill);
    ghost var paths;
    r, filled, paths := Spread(c, x, y, fill);
    MatchingAtMostArea(c, target);
    forall px, py | c.InBounds(px, py) && r.Get(px, py) != c.Get(px, py)
      ensures Connected(c, target, Cell(x, y), Cell(px, py))
    {
      assert PathFrom(c, target, Cell(x, y), Cell(px, py), paths[Cell(px, py)]);
    }
    if filled < MaxFill {
      forall px, py | c.InBounds(px, py) && Connected(c, target, Cell(x, y), Cell(px, py))
        ensures r.Get(px, py) != c.Get(px, py)
      {
        var path :| PathFrom(c, target, Cell(x, y), Cell(px, py), path);
        FilledAlongPath(c, r, target, fill, path);
      }
    }
  }

  /** The queue loop of `FloodFill`, for a seed whose colour differs from the fill colour.
      Besides the canvas and the count it returns, as ghost evidence, a path from the seed to
      every pixel it changed. */
  method Spread(c: Canvas, x: int, y: int, fill: Color) returns (r: Canvas, filled: nat, ghost paths: map<Cell, seq<Cell>>)
    requires c.Valid() && c.InBounds(x, y) && !ColorEquals(fill, c.Get(x, y))
    ensures r.Valid() && SameShape(r, c)
    ensures r.Get(x, y) == fill && 1 <= filled <= MaxFill
    ensures forall px, py :: c.InBounds(px, py) ==>
              r.Get(px, py) == c.Get(px, py) || (ColorEquals(c.Get(px, py), c.Get(x, y)) && r.Get(px, py) == fill)
    ensures filled + Matching(r, c.Get(x, y)) == Matching(c, c.Get(x, y))
    ensures filled < MaxFill ==> Sealed(c, r, c.Get(x, y), [])
    ensures Traced(c, r, c.Get(x, y), Cell(x, y), paths)
  {
    var target := c.Get(x, y);
    ColorEqualsReflexive(target);
    r, filled := c, 0;
    var queue := [Cell(x, y)];
    ghost var started := false;
    ghost var trails: seq<seq<Cell>> := [[Cell(x, y)]];
    paths := map[];
    while |queue| > 0 && filled < MaxFill
      invariant r.Valid() && SameShape(r, c)
      invariant filled <= MaxFill
      invariant filled + Matching(r, target) == Matching(c, target)
      invariant forall px, py :: c.InBounds(px, py) ==>
                  r.Get(px, py) == c.Get(px, py) || (ColorEquals(c.Get(px, py), target) && r.Get(px, py) == fill)
      invariant !started ==> queue == [Cell(x, y)] && r == c && filled == 0
      invariant started ==> r.Get(x, y) == fill && 1 <= filled
      invariant Evidence(c, r, target, Cell(x, y), queue, trails, paths)
      decreases Matching(r, target), |queue|
    {
      var p := queue[0];
      // an off-canvas cell is skipped before its colour is read
      if r.InBounds(p.x, p.y) && ColorEquals(r.Get(p.x, p.y), target) {
        MatchingAfterPlot(r, p.x, p.y, fill, target);
        assert r.Get(p.x, p.y) == c.Get(p.x, p.y);
        EvidenceAfterFill(c, r, target, fill, Cell(x, y), queue, trails, paths);
        paths := paths[p := trails[0]];
        trails := trails[1..] + Extend(trails[0], Neighbours(p));
        r := r.Plot(p.x, p.y, fill);
        filled := filled + 1;
        queue := queue[1..] + Neighbours(p);
      } else {
        EvidenceAfterSkip(c, r, target, Cell(x, y), queue, trails, paths);
        queue, trails := queue[1..], trails[1..];
      }
      started := true;
    }
  }

  /** What the fill loop knows besides the pixel counts: the fill is sealed by the queue,
      every queued cell was reached from the seed, and so was every changed pixel. */
  ghost predicate Evidence(c: Canvas, r: Canvas, target: Color, seed: Cell, queue: seq<Cell>,
                           trails: seq<seq<Cell>>, paths: map<Cell, seq<Cell>>)
    requires c.Valid() && r.Valid() && SameShape(r, c)
  {
    Sealed(c, r, target, queue) && Queued(c, target, seed, queue, trails) && Traced(c, r, target, seed, paths)
  }

  /** Skipping an off-canvas or non-matching head of the queue keeps the loop's evidence. */
  lemma EvidenceAfterSkip(c: Canvas, r: Canvas, target: Color, seed: Cell, queue: seq<Cell>,
                          trails: seq<seq<Cell>>, paths: map<Cell, seq<Cell>>)
    requires c.Valid() && r.Valid() && SameShape(r, c) && 0 < |queue|
    requires Evidence(c, r, target, seed, queue, trails, paths)
    requires !r.InBounds(queue[0].x, queue[0].y) || !ColorEquals(r.Get(queue[0].x, queue[0].y), target)
    ensures Evidence(c, r, target, seed, queue[1..], trails[1..], paths)
  {
    SealedAfterSkip(c, r, target, queue);
    QueuedAfterSkip(c, target, seed, queue, trails);
  }

  /** Filling a matching, so far unchanged, head of the queue keeps the loop's evidence: its
      trail becomes its recorded path, and its neighbours are queued with that path extended. */
  lemma EvidenceAfterFill(c: Canvas, r: Canvas, target: Color, fill: Color, seed: Cell, queue: seq<Cell>,
                          trails: seq<seq<Cell>>, paths: map<Cell, seq<Cell>>)
    requires c.Valid() && r.Valid() && SameShape(r, c) && 0 < |queue| && !ColorEquals(fill, target)
    requires Evidence(c, r, target, seed, queue, trails, paths)
    requires r.InBounds(queue[0].x, queue[0].y) && ColorEquals(r.Get(queue[0].x, queue[0].y), target)
    requires r.Get(queue[0].x, queue[0].y) == c.Get(queue[0].x, queue[0].y)
    ensures Evidence(c, r.Plot(queue[0].x, queue[0].y, fill), target, seed,
                     queue[1..] + Neighbours(queue[0]), trails[1..] + Extend(trails[0], Neighbours(queue[0])),
                     paths[queue[0] := trails[0]])
  {
    var p := queue[0];
    SealedAfterFill(c, r, target, queue, fill);
    LeadsToMatching(c, target, seed, p, trails[0]);
    QueuedAfterFill(c, target, seed, queue, trails);
    TracedAfterFill(c, r, target, fill, seed, paths, p, trails[0]);
  }

  /** Dropping the head of the queue keeps the fill sealed when the head cannot leak. */
  lemma SealedAfterSkip(c: Canvas, r: Canvas, target: Color, queue: seq<Cell>)
    requires c.Valid() && r.Valid() && SameShape(r, c) && 0 < |queue|
    requires Sealed(c, r, target, queue)
    requires !r.InBounds(queue[0].x, queue[0].y) || !ColorEquals(r.Get(queue[0].x, queue[0].y), target)
    ensures Sealed(c, r, target, queue[1..])
  {
    forall px, py | c.InBounds(px, py) && r.Get(px, py) != c.Get(px, py)
      ensures Enclosed(r, target, Cell(px, py), queue[1..])
    {
      forall nb | nb in Neighbours(Cell(px, py))
        ensures Blocked(r, target, nb, queue[1..])
      {
        assert Blocked(r, target, nb, queue);
        if nb in queue && nb != queue[0] {
          var k :| 0 <= k < |queue| && queue[k] == nb;
          assert queue[1..][k - 1] == nb;
        }
      }
    }
  }

  /** Filling the matching head of the queue and enqueueing its neighbours keeps the fill
      sealed. */
  lemma SealedAfterFill(c: Canvas, r: Canvas, target: Color, queue: seq<Cell>, fill: Color)
    requires c.Valid() && r.Valid() && SameShape(r, c) && 0 < |queue|
    requires Sealed(c, r, target, queue)
    requires r.InBounds(queue[0].x, queue[0].y) && !ColorEquals(fill, target)
    ensures Sealed(c, r.Plot(queue[0].x, queue[0].y, fill), target, queue[1..] + Neighbours(queue[0]))
  {
    var p := queue[0];
    var r' := r.Plot(p.x, p.y, fill);
    var queue' := queue[1..] + Neighbours(p);
    forall px, py | c.InBounds(px, py) && r'.Get(px, py) != c.Get(px, py)
      ensures Enclosed(r', target, Cell(px, py), queue')
    {
      forall nb | nb in Neighbours(Cell(px, py))
        ensures Blocked(r', target, nb, queue')
      {
        if Cell(px, py) == p {
          assert nb in queue';
        } else {
          assert Blocked(r, target, nb, queue);
          if nb == p {
            assert r'.Get(nb.x, nb.y) == fill;
          } else if nb in queue {
            var k :| 0 <= k < |queue| && queue[k] == nb;
            assert queue'[k - 1] == nb;
          }
        }
      }
    }
  }
}

=== FILE: numbers.dfy ===
/** Integer helpers shared by the paint engine model: the `Mathf.Abs`, `Mathf.Min`,
    `Mathf.Max` and `Mathf.Clamp` calls of the source, on unbounded integers. */
module Numbers {

  function Abs(x: int): (r: nat)
    ensures r == x || r == -x
  {
    if x < 0 then -x else x
  }

  function Min(a: int, b: int): (r: int)
    ensures r <= a && r <= b
    ensures r == a || r == b
  {
    if a <= b then a else b
  }

  function Max(a: int, b: int): (r: int)
    ensures r >= a && r >= b
    ensures r == a || r == b
  {
    if a >= b then a else b
  }

  /** `Mathf.Clamp(v, lo, hi)` for lo <= hi. */
  function Clamp(v: int, lo: int, hi: int): (r: int)
    requires lo <= hi
    ensures lo <= r <= hi
    ensures lo <= v <= hi ==> r == v
    ensures v < lo ==> r == lo
    ensures v > hi ==> r == hi
  {
    if v < lo then lo else if v > hi then hi else v
  }

  /** A square no larger than n*n has a root within [-n, n]. */
  lemma SquareWithin(a: int, n: int)
    requires n >= 0 && a * a <= n * n
    ensures -n <= a <= n
  {
    if a > n {
      SquareGrows(n, a);
    } else if a < -n {
      SquareGrows(n, -a);
    }
  }

  /** Squaring is strictly increasing on the non-negative integers. */
  lemma SquareGrows(n: nat, m: int)
    requires n < m
    ensures n * n < m * m
  {
    MulMonotone(n, n, m);
    MulMonotone(m, n, m);
    assert n * m == m * n;
  }

  /** Multiplying by a non-negative factor keeps the order. */
  lemma MulMonotone(k: nat, a: int, b: int)
    requires a <= b
    ensures k * a <= k * b
  {
    assert k * b - k * a == k * (b - a);
  }
}

=== FILE: pixels.dfy ===
/** The pixel grid: a fixed width x height canvas addressed as (x, y). */
module Pixels {

  import opened Colors

  datatype Cell = Cell(x: int, y: int)

  /** `grid[y][x]` is the colour of pixel (x, y). */
  datatype Canvas = Canvas(width: nat, height: nat, grid: seq<seq<Color>>) {

    predicate Valid()
    {
      |grid| == height && forall y :: 0 <= y < height ==> |grid[y]| == width
    }

    predicate InBounds(x: int, y: int)
    {
      0 <= x < width && 0 <= y < height
    }

    /** `GetPixel`: every call site of the source reads inside the canvas. */
    function Get(x: int, y: int): Color
      requires Valid() && InBounds(x, y)
    {
      grid[y][x]
    }

    /** The guarded write `if (px >= 0 && px < W && py >= 0 && py < H) SetPixel(px, py, col)`
        that every drawing routine uses: a write off the canvas is dropped. */
    function Plot(x: int, y: int, col: Color): (r: Canvas)
      requires Valid()
      ensures r.Valid() && SameShape(r, this)
      ensures InBounds(x, y) ==> r.Get(x, y) == col
      ensures forall qx, qy :: InBounds(qx, qy) && (qx != x || qy != y) ==> r.Get(qx, qy) == Get(qx, qy)
    {
      if InBounds(x, y) then Canvas(width, height, grid[y := grid[y][x := col]]) else this
    }
  }

  predicate SameShape(a: Canvas, b: Canvas)
  {
    a.width == b.width && a.height == b.height
  }

  /** A canvas of one colour: `InitializeCanvas` and `ClearCanvas` fill with the background. */
  function Filled(width: nat, height: nat, col: Color): (r: Canvas)
    ensures r.Valid() && r.width == width && r.height == height
    ensures forall x, y :: r.InBounds(x, y) ==> r.Get(x, y) == col
  {
    Canvas(width, height, seq(height, _ => seq(width, _ => col)))
  }
}

=== FILE: session.dfy ===
/** The stateful part of PaintSimulator.cs: the canvas with its one-level backup and its
    displayed copy, the tool settings, and the per-frame gesture handling of `HandleInput`
    and `Update`. */
module Session {

  import opened Numbers
  import opened Colors
  import opened Pixels
  import opened Stamp
  import opened Bresenham
  import opened Tools
  import opened Shapes
  import opened Fill

  const MinBrush: int := 1
  const MaxBrush: int := 50
  /** The `+`/`-` keys change the brush size by this much. */
  const BrushStep: int := 2
  const InitialBrush: int := 5
  /** `applyInterval` (0.05 s) in milliseconds. */
  const ApplyInterval: int := 50

  /** The fields of the component. `displayed` is what the last `canvas.Apply()` showed. */
  datatype Paint = Paint(
    canvas: Canvas,
    backup: Canvas,
    displayed: Canvas,
    background: Color,
    current: Color,
    brush: int,
    tool: Tool,
    drawing: bool,
    shaping: bool,
    lastDraw: Cell,
    anchor: Cell,
    needsApply: bool,
    lastApplyTime: int)
  {
    /** Canvas, backup and display share the dimensions; the brush size is in range. */
    predicate Valid()
    {
      && canvas.Valid() && backup.Valid() && displayed.Valid()
      && SameShape(backup, canvas) && SameShape(displayed, canvas)
      && MinBrush <= brush <= MaxBrush
      && tool.Valid()
    }

    /** The display shows the canvas unless a deferred apply is pending. */
    predicate Synced()
    {
      !needsApply ==> displayed == canvas
    }
  }

  /** `Start`/`InitializeCanvas` with the field initialisers. The backup texture's first
      contents are whatever a new texture holds, given here as `blank`. */
  function Init(width: nat, height: nat, background: Color, blank: Color): (s: Paint)
    ensures s.Valid() && s.Synced()
    ensures s.canvas.width == width && s.canvas.height == height
    ensures forall x, y :: s.canvas.InBounds(x, y) ==> s.canvas.Get(x, y) == background
    ensures s.brush == InitialBrush && s.tool == Pencil && s.current == Black
    ensures !s.drawing && !s.shaping && !s.needsApply
  {
    var c := Filled(width, height, background);
    Paint(c, Filled(width, height, blank), c, background, Black, InitialBrush, Pencil,
          false, false, Cell(0, 0), Cell(0, 0), false, 0)
  }

  /** `BackupCanvas`: the backup becomes a copy of the canvas. */
  function BackupCanvas(s: Paint): (r: Paint)
    requires s.Valid()
    ensures r.Valid()
    ensures r == s.(backup := s.canvas)
  {
    s.(backup := s.canvas)
  }

  /** `RestoreCanvas`: the canvas becomes a copy of the backup, and is displayed. */
  function RestoreCanvas(s: Paint): (r: Paint)
    requires s.Valid()
    ensures r.Valid() && r.Synced()
    ensures r == s.(canvas := s.backup, displayed := s.backup)
  {
    s.(canvas := s.backup, displayed := s.backup)
  }

  /** `ClearCanvas`: back up, then fill with the background colour and display. */
  function ClearCanvas(s: Paint): (r: Paint)
    requires s.Valid()
    ensures r.Valid() && r.Synced()
    ensures r.backup == s.canvas
    ensures SameShape(r.canvas, s.canvas)
    ensures forall x, y :: r.canvas.InBounds(x, y) ==> r.canvas.Get(x, y) == s.background
    ensures r == s.(backup := s.canvas, canvas := r.canvas, displayed := r.canvas)
  {
    var c := Filled(s.canvas.width, s.canvas.height, s.background);
    s.(backup := s.canvas, canvas := c, displayed := c)
  }

  /** Restoring gives back the canvas as it was at the last backup, whatever was drawn since,
      as long as nothing backed up again. */
  lemma RestoreAfterBackup(s: Paint, later: Paint)
    requires s.Valid() && later.Valid()
    requires later.backup == BackupCanvas(s).backup
    ensures RestoreCanvas(later).canvas == s.canvas
  {
  }

  /** Clearing is undoable: a restore right after a clear recovers the cleared canvas. */
  lemma RestoreAfterClear(s: Paint)
    requires s.Valid()
    ensures RestoreCanvas(ClearCanvas(s)).canvas == s.canvas
  {
  }

  /** `SetColor(index)`: an index outside the palette is ignored. */
  function SetColor(s: Paint, index: int): (r: Paint)
    requires s.Valid()
    ensures r.Valid()
    ensures 0 <= index < |Palette| ==> r == s.(current := Palette[index])
    ensures !(0 <= index < |Palette|) ==> r == s
  {
    if 0 <= index < |Palette| then s.(current := Palette[index]) else s
  }

  /** `SetTool(toolIndex)`: the unchecked cast; the index is recoverable from the tool. */
  function SetTool(s: Paint, index: int): (r: Paint)
    requires s.Valid()
    ensures r.Valid()
    ensures IndexOf(r.tool) == index
    ensures 0 <= index < ToolCount <==> !r.tool.Unnamed?
    ensures r == s.(tool := r.tool)
  {
    IndexRoundTrip(index);
    s.(tool := FromIndex(index))
  }

  /** `SetBrushSize(size)`: `Mathf.Clamp(size, 1, 50)`. */
  function SetBrushSize(s: Paint, size: int): (r: Paint)
    requires s.Valid()
    ensures r.Valid()
    ensures MinBrush <= r.brush <= MaxBrush
    ensures MinBrush <= size <= MaxBrush ==> r.brush == size
    ensures size < MinBrush ==> r.brush == MinBrush
    ensures size > MaxBrush ==> r.brush == MaxBrush
    ensures r == s.(brush := r.brush)
  {
    s.(brush := Clamp(size, MinBrush, MaxBrush))
  }

  /** The keys `HandleInput` reacts to; `Alpha(n)` is the digit key n. */
  datatype Key = Alpha(digit: int) | Plus | KeypadPlus | Equals | Minus | KeypadMinus | Z | C | S

  /** Digit n (1..8) selects tool n - 1. None of the digits n..8 is pressed. */
  predicate NoDigitFrom(keys: set<Key>, n: int)
  {
    forall m :: n <= m <= 8 ==> Alpha(m) !in keys
  }

  /** The highest digit d in n..8 whose key is pressed, or 0 when there is none. */
  function HighestDigit(keys: set<Key>, n: int): (d: int)
    requires 1 <= n <= 9
    ensures d == 0 || (n <= d <= 8 && Alpha(d) in keys && NoDigitFrom(keys, d + 1))
    ensures d == 0 <==> NoDigitFrom(keys, n)
    decreases 9 - n
  {
    if n == 9 then 0
    else if HighestDigit(keys, n + 1) != 0 then HighestDigit(keys, n + 1)
    else if Alpha(n) in keys then n
    else 0
  }

  /** The eight `if (GetKeyDown(AlphaN)) currentTool = ...` lines from digit n on, in order:
      each pressed digit overrides the ones before it, so the highest pressed digit wins. */
  function DigitKeys(t: Tool, keys: set<Key>, n: int): (r: Tool)
    requires 1 <= n <= 9
    ensures HighestDigit(keys, n) == 0 ==> r == t
    ensures HighestDigit(keys, n) != 0 ==> r == FromIndex(HighestDigit(keys, n) - 1)
    decreases 9 - n
  {
    if n == 9 then t
    else DigitKeys(if Alpha(n) in keys then FromIndex(n - 1) else t, keys, n + 1)
  }

  /** One of the `+` keys is down: `Plus`, `KeypadPlus` or `Equals`. */
  predicate Grows(keys: set<Key>)
  {
    Plus in keys || KeypadPlus in keys || Equals in keys
  }

  /** One of the `-` keys is down: `Minus` or `KeypadMinus`. */
  predicate Shrinks(keys: set<Key>)
  {
    Minus in keys || KeypadMinus in keys
  }

  /** The `+` keys grow the brush by 2 up to 50, then the `-` keys shrink it by 2 down
      to 1. */
  function BrushKeys(b: int, keys: set<Key>): (r: int)
    ensures MinBrush <= b <= MaxBrush ==> MinBrush <= r <= MaxBrush
  {
    var grown := if Grows(keys) then Min(b + BrushStep, MaxBrush) else b;
    if Shrinks(keys) then Max(grown - BrushStep, MinBrush) else grown
  }

  /** The brush size after any set of keys: `+` alone saturates at 50, `-` alone at 1, and
      both together cancel except near the top end, where the `+` was cut short. Other keys
      do not matter. */
  lemma BrushKeysSaturate(b: int, keys: set<Key>)
    requires MinBrush <= b <= MaxBrush
    ensures Grows(keys) && !Shrinks(keys) ==> BrushKeys(b, keys) == Min(b + 2, 50)
    ensures !Grows(keys) && Shrinks(keys) ==> BrushKeys(b, keys) == Max(b - 2, 1)
    ensures Grows(keys) && Shrinks(keys) ==> BrushKeys(b, keys) == Min(b, 48)
    ensures !Grows(keys) && !Shrinks(keys) ==> BrushKeys(b, keys) == b
    ensures BrushKeys(b, keys) == BrushKeys(b, keys * {Plus, KeypadPlus, Equals, Minus, KeypadMinus})
  {
  }

  /** `Ctrl+Z` restores the backup, then `Ctrl+C` clears; `Ctrl+S` (`SaveImage`) writes a
      file and leaves the state unchanged. */
  function EditKeys(s: Paint, keys: set<Key>, ctrl: bool): (r: Paint)
    requires s.Valid()
    ensures r.Valid()
    ensures s.Synced() ==> r.Synced()
    ensures r == s.(canvas := r.canvas, backup := r.backup, displayed := r.displayed)
    ensures !ctrl || (Z !in keys && C !in keys) ==> r == s
    ensures ctrl && Z in keys && C !in keys ==> r.canvas == s.backup && r.backup == s.backup
    ensures ctrl && C in keys ==> forall x, y :: r.canvas.InBounds(x, y) ==> r.canvas.Get(x, y) == s.background
    ensures ctrl && C in keys && Z !in keys ==> r.backup == s.canvas
    ensures ctrl && C in keys && Z in keys ==> r.backup == s.backup
  {
    var undone := if ctrl && Z in keys then RestoreCanvas(s) else s;
    if ctrl && C in keys then ClearCanvas(undone) else undone
  }

  /** The shortcut block at the end of `HandleInput`: tool digits, brush keys, then the
      editing keys. */
  function Shortcuts(s: Paint, keys: set<Key>, ctrl: bool): (r: Paint)
    requires s.Valid()
    ensures r.Valid()
    ensures s.Synced() ==> r.Synced()
    ensures r.tool == DigitKeys(s.tool, keys, 1) && r.brush == BrushKeys(s.brush, keys)
    ensures r.current == s.current && r.background == s.background && SameShape(r.canvas, s.canvas)
    ensures r.drawing == s.drawing && r.shaping == s.shaping && r.anchor == s.anchor && r.lastDraw == s.lastDraw
    ensures r.needsApply == s.needsApply && r.lastApplyTime == s.lastApplyTime
    ensures !(ctrl && C in keys) ==> r.backup == s.backup
    ensures !ctrl || (Z !in keys && C !in keys) ==> r.canvas == s.canvas && r.displayed == s.displayed
    ensures ctrl && Z in keys && C !in keys ==> r.canvas == s.backup && r.displayed == s.backup
    ensures ctrl && C in keys ==>
              && r.displayed == r.canvas
              && (forall x, y :: r.canvas.InBounds(x, y) ==> r.canvas.Get(x, y) == s.background)
              && r.backup == (if Z in keys then s.backup else s.canvas)
  {
    EditKeys(s.(tool := DigitKeys(s.tool, keys, 1), brush := BrushKeys(s.brush, keys)), keys, ctrl)
  }

  /** Fields a pointer phase never changes. */
  predicate Settled(s: Paint, r: Paint)
  {
    r.tool == s.tool && r.brush == s.brush && r.background == s.background
    && r.lastApplyTime == s.lastApplyTime && SameShape(r.canvas, s.canvas)
  }

  /** The pointer-down branch: back up, then act by tool; remember the position. */
  method Press(s: Paint, at: Cell) returns (r: Paint)
    requires s.Valid() && s.canvas.InBounds(at.x, at.y)
    ensures r.Valid() && Settled(s, r)
    ensures s.Synced() ==> r.Synced()
    ensures r.backup == s.canvas && r.lastDraw == at && r.shaping == (s.shaping || s.tool.IsShape())
    ensures r.drawing == (s.drawing || s.tool.StartsStroke())
    ensures s.tool.IsShape() ==> r.anchor == at && r.canvas == s.canvas
    ensures !s.tool.IsShape() ==> r.anchor == s.anchor
    ensures s.tool == Eyedropper ==> r.current == s.canvas.Get(at.x, at.y) && r.canvas == s.canvas
    ensures s.tool != Eyedropper ==> r.current == s.current
    ensures s.tool.IsDab() ==> r.needsApply && forall x, y :: s.canvas.InBounds(x, y) ==>
              r.canvas.Get(x, y) == if InDisc(x - at.x, y - at.y, DabThreshold(s.tool, s.brush))
                                    then DabColor(s.tool, s.current, s.background) else s.canvas.Get(x, y)
    ensures s.tool.StartsStroke() ==> r.needsApply
    ensures s.tool == Fill ==>
              && r.displayed == r.canvas
              && (forall x, y :: s.canvas.InBounds(x, y) ==>
                    r.canvas.Get(x, y) == s.canvas.Get(x, y)
                    || (ColorEquals(s.canvas.Get(x, y), s.canvas.Get(at.x, at.y)) && r.canvas.Get(x, y) == s.current))
              && (!ColorEquals(s.canvas.Get(at.x, at.y), s.current) ==> r.canvas.Get(at.x, at.y) == s.current)
  {
    r := BackupCanvas(s);
    if r.tool.IsShape() {
      r := r.(anchor := at, shaping := true);
    } else if r.tool == Fill {
      var filled, _ := FloodFill(r.canvas, at.x, at.y, r.current);
      r := r.(canvas := filled, displayed := filled);
    } else if r.tool == Eyedropper {
      r := r.(current := r.canvas.Get(at.x, at.y));
    } else {
      var dabbed := Draw(r.canvas, r.tool, at, r.brush, r.current, r.background);
      r := r.(drawing := true, canvas := dabbed, needsApply := true);
    }
    r := r.(lastDraw := at);
  }

  /** The held branch: while a stroke is on, stroke from the last position to this one. */
  method Hold(s: Paint, at: Cell) returns (r: Paint)
    requires s.Valid()
    ensures r.Valid() && Settled(s, r)
    ensures s.Synced() ==> r.Synced()
    ensures r.backup == s.backup && r.current == s.current && r.anchor == s.anchor
    ensures r.drawing == s.drawing && r.shaping == s.shaping && r.displayed == s.displayed
    ensures !s.drawing ==> r == s
    ensures s.drawing ==> r.lastDraw == at && r.needsApply
    ensures s.drawing && !s.tool.IsDab() ==> r.canvas == s.canvas
    ensures s.drawing && s.tool.IsDab() ==> forall x, y :: s.canvas.InBounds(x, y) ==>
              r.canvas.Get(x, y) == if Covered(x, y, Path(s.lastDraw, at), DabThreshold(s.tool, s.brush))
                                    then DabColor(s.tool, s.current, s.background) else s.canvas.Get(x, y)
    ensures s.drawing && s.tool.IsDab() && s.lastDraw == at ==> forall x, y :: s.canvas.InBounds(x, y) ==>
              r.canvas.Get(x, y) == if InDisc(x - at.x, y - at.y, DabThreshold(s.tool, s.brush))
                                    then DabColor(s.tool, s.current, s.background) else s.canvas.Get(x, y)
  {
    r := s;
    if r.drawing {
      var stroked := DrawLine(r.canvas, r.tool, r.lastDraw, at, r.brush, r.current, r.background);
      r := r.(canvas := stroked, needsApply := true, lastDraw := at);
    }
  }

  /** The pointer-up branch: commit a shape, flush a stroke, and end both gestures. */
  method Release(s: Paint, at: Cell, trig: Trig) returns (r: Paint)
    requires s.Valid()
    ensures r.Valid() && Settled(s, r)
    ensures s.Synced() ==> r.Synced()
    ensures r.backup == s.backup && r.current == s.current && r.anchor == s.anchor && r.lastDraw == s.lastDraw
    ensures !r.drawing && !r.shaping
    ensures !s.shaping || !s.tool.IsShape() ==> r.canvas == s.canvas
    ensures s.shaping ==>
              && r.displayed == r.canvas
              && forall x, y :: s.canvas.InBounds(x, y) ==>
                   r.canvas.Get(x, y) == if Covered(x, y, ShapeCentres(s.tool, s.anchor, at, trig), s.brush * s.brush)
                                         then s.current else s.canvas.Get(x, y)
    ensures s.drawing ==> !r.needsApply && r.displayed == r.canvas
    ensures !s.drawing ==> r.needsApply == s.needsApply
  {
    r := s;
    if r.shaping {
      var committed := DrawShape(r.canvas, r.tool, r.anchor, at, r.brush, r.current, trig);
      r := r.(canvas := committed, shaping := false, displayed := committed);
    }
    if r.drawing {
      r := r.(displayed := r.canvas, needsApply := false);
    }
    r := r.(drawing := false);
  }

  /** The shape preview: while a shape is being dragged, restore the backup and draw the
      shape from the anchor to the pointer over it. */
  method Preview(s: Paint, at: Cell, trig: Trig) returns (r: Paint)
    requires s.Valid()
    ensures r.Valid() && Settled(s, r)
    ensures s.Synced() ==> r.Synced()
    ensures r.backup == s.backup && r.current == s.current && r.anchor == s.anchor && r.lastDraw == s.lastDraw
    ensures r.drawing == s.drawing && r.shaping == s.shaping && r.needsApply == s.needsApply
    ensures !s.shaping ==> r == s
    ensures s.shaping ==>
              && r.displayed == r.canvas
              && forall x, y :: s.backup.InBounds(x, y) ==>
                   r.canvas.Get(x, y) == if Covered(x, y, ShapeCentres(s.tool, s.anchor, at, trig), s.brush * s.brush)
                                         then s.current else s.backup.Get(x, y)
    ensures s.shaping && !s.tool.IsShape() ==> r.canvas == s.backup
  {
    r := s;
    if r.shaping {
      r := RestoreCanvas(r);
      var preview := DrawShape(r.canvas, r.tool, r.anchor, at, r.brush, r.current, trig);
      r := r.(canvas := preview, displayed := preview);
    }
  }

  /** The pointer part of `HandleInput` for a pointer inside the canvas at cell `at`:
      pointer-down, held, up and the shape preview, in this order. */
  method PointerEvents(s: Paint, at: Cell, down: bool, held: bool, up: bool, trig: Trig) returns (r: Paint)
    requires s.Valid() && s.canvas.InBounds(at.x, at.y)
    ensures r.Valid() && Settled(s, r)
    ensures s.Synced() ==> r.Synced()
    // pointer-down always backs up first; nothing else touches the backup
    ensures down ==> r.backup == s.canvas
    ensures !down ==> r.backup == s.backup
    // the eyedropper reads the pixel and leaves the canvas alone
    ensures down && s.tool == Eyedropper ==> r.current == s.canvas.Get(at.x, at.y) && r.canvas == s.canvas
    ensures !(down && s.tool == Eyedropper) ==> r.current == s.current
    // a freehand press stamps exactly one dab (the zero-length stroke that follows repeats it)
    ensures down && s.tool.IsDab() && !s.shaping ==> forall x, y :: s.canvas.InBounds(x, y) ==>
              r.canvas.Get(x, y) == if InDisc(x - at.x, y - at.y, DabThreshold(s.tool, s.brush))
                                    then DabColor(s.tool, s.current, s.background) else s.canvas.Get(x, y)
    ensures down && s.tool.StartsStroke() && !up ==> r.drawing && r.needsApply
    ensures !down && held && !up && s.drawing ==> r.needsApply
    // a drag of a stroke paints the segment from the last position
    ensures !down && held && !up && s.drawing && !s.shaping && s.tool.IsDab() ==>
              forall x, y :: s.canvas.InBounds(x, y) ==>
                r.canvas.Get(x, y) == if Covered(x, y, Path(s.lastDraw, at), DabThreshold(s.tool, s.brush))
                                      then DabColor(s.tool, s.current, s.background) else s.canvas.Get(x, y)
    // a fill press changes only pixels that matched the pressed one, to the current colour
    ensures down && s.tool == Fill && !s.shaping ==> forall x, y :: s.canvas.InBounds(x, y) ==>
              r.canvas.Get(x, y) == s.canvas.Get(x, y)
              || (ColorEquals(s.canvas.Get(x, y), s.canvas.Get(at.x, at.y)) && r.canvas.Get(x, y) == s.current)
    // a shape press anchors at the pointer
    ensures down && s.tool.IsShape() && !up ==> r.shaping && r.anchor == at
    ensures !down ==> r.anchor == s.anchor
    ensures !down && !up ==> r.drawing == s.drawing && r.shaping == s.shaping
    // while held, the canvas is the backup with the shape preview drawn over it
    ensures held && !up && r.shaping ==>
              && r.displayed == r.canvas
              && forall x, y :: r.backup.InBounds(x, y) ==>
                   r.canvas.Get(x, y) == if Covered(x, y, ShapeCentres(s.tool, r.anchor, at, trig), s.brush * s.brush)
                                         then s.current else r.backup.Get(x, y)
    ensures held && !up && r.shaping && !s.tool.IsShape() ==> r.canvas == r.backup
    // release ends every gesture and leaves the display up to date
    ensures up ==> !r.drawing && !r.shaping
    ensures up && !down && s.shaping && !(held && s.drawing) ==>
              && r.displayed == r.canvas
              && forall x, y :: s.canvas.InBounds(x, y) ==>
                   r.canvas.Get(x, y) == if Covered(x, y, ShapeCentres(s.tool, s.anchor, at, trig), s.brush * s.brush)
                                         then s.current else s.canvas.Get(x, y)
    ensures up && (s.drawing || (down && s.tool.StartsStroke())) ==> !r.needsApply && r.displayed == r.canvas
  {
    var pressed := s;
    if down {
      pressed := Press(s, at);
    }
    var stroked := pressed;
    if held {
      stroked := Hold(pressed, at);
    }
    var released := stroked;
    if up {
      released := Release(stroked, at, trig);
    }
    r := released;
    if held {
      r := Preview(released, at, trig);
    }
    if up && !down && s.shaping && !(held && s.drawing) {
      assert stroked == s;
      assert r == released;
    }
    if !down && held && !up && s.drawing && !s.shaping && s.tool.IsDab() {
      assert r == stroked;
    }
    if down && s.tool == Fill && !s.shaping {
      assert r.canvas == stroked.canvas == pressed.canvas;
    }
  }

  /** Where the pointer is this frame: `Off` when it is off the screen, inside the drawing
      margin, or when the projection onto the sprite fails; otherwise the truncated cell. */
  datatype Pointer = Off | At(cell: Cell)

  /** One frame's input: the mouse button state and the keys pressed this frame. */
  datatype Frame = Frame(pointer: Pointer, down: bool, held: bool, up: bool, keys: set<Key>, ctrl: bool)

  predicate OnCanvas(s: Paint, p: Pointer)
  {
    p.At? && s.canvas.InBounds(p.cell.x, p.cell.y)
  }

  /** `HandleInput`: leaving the canvas only clears `isDrawing` (shortcut keys included,
      nothing else runs); otherwise the pointer branches, then the shortcut keys. */
  method HandleInput(s: Paint, f: Frame, trig: Trig) returns (r: Paint)
    requires s.Valid()
    ensures r.Valid()
    ensures s.Synced() ==> r.Synced()
    ensures r.lastApplyTime == s.lastApplyTime && r.background == s.background
    ensures SameShape(r.canvas, s.canvas)
    ensures !OnCanvas(s, f.pointer) ==> r == s.(drawing := false)
    ensures Undoes(s, f) ==> r.canvas == r.backup
    ensures OnCanvas(s, f.pointer) ==> r.tool == DigitKeys(s.tool, f.keys, 1) && r.brush == BrushKeys(s.brush, f.keys)
    ensures OnCanvas(s, f.pointer) && f.up ==> !r.drawing && !r.shaping
    ensures Presses(s, f) ==> r.backup == s.canvas
    ensures !f.down && !(f.ctrl && C in f.keys) ==> r.backup == s.backup
    ensures Strokes(s, f) ==> r.needsApply
    ensures OnCanvas(s, f.pointer) && f.ctrl && C in f.keys ==>
              r.displayed == r.canvas && forall x, y :: r.canvas.InBounds(x, y) ==> r.canvas.Get(x, y) == s.background
    ensures OnCanvas(s, f.pointer) && !f.down && f.held && !f.up && s.drawing && !s.shaping && s.tool.IsDab()
            && !(f.ctrl && (Z in f.keys || C in f.keys)) ==>
              forall x, y :: s.canvas.InBounds(x, y) ==>
                r.canvas.Get(x, y) == if Covered(x, y, Path(s.lastDraw, f.pointer.cell), DabThreshold(s.tool, s.brush))
                                      then DabColor(s.tool, s.current, s.background) else s.canvas.Get(x, y)
    ensures OnCanvas(s, f.pointer) && f.down && s.tool == Eyedropper && !(f.ctrl && C in f.keys) ==>
              r.current == s.canvas.Get(f.pointer.cell.x, f.pointer.cell.y) && r.canvas == s.canvas
  {
    if !OnCanvas(s, f.pointer) {
      return s.(drawing := false);
    }
    r := PointerEvents(s, f.pointer.cell, f.down, f.held, f.up, trig);
    r := Shortcuts(r, f.keys, f.ctrl);
  }

  /** `Update`: handle the frame, then flush a pending apply once more than `ApplyInterval`
      milliseconds have passed since the last flush. Afterwards a stale display always has
      a pending apply no older than the interval; a flush happens only after the interval,
      and a freehand stroke is flushed exactly when the interval has passed. */
  method Update(s: Paint, f: Frame, now: int, trig: Trig) returns (r: Paint)
    requires s.Valid()
    ensures r.Valid()
    ensures s.Synced() ==> r.Synced()
    ensures r.needsApply ==> now - r.lastApplyTime <= ApplyInterval
    ensures r.lastApplyTime == s.lastApplyTime || r.lastApplyTime == now
    ensures r.lastApplyTime != s.lastApplyTime ==>
              now - s.lastApplyTime > ApplyInterval && !r.needsApply && r.displayed == r.canvas
    ensures Strokes(s, f) ==> (r.needsApply <==> now - s.lastApplyTime <= ApplyInterval)
    ensures Strokes(s, f) && now - s.lastApplyTime > ApplyInterval ==> r.lastApplyTime == now
    ensures !OnCanvas(s, f.pointer) && !(s.needsApply && now - s.lastApplyTime > ApplyInterval) ==>
              r == s.(drawing := false)
    ensures SameShape(r.canvas, s.canvas)
    ensures !f.down && !(f.ctrl && C in f.keys) ==> r.backup == s.backup
    ensures Presses(s, f) ==> r.backup == s.canvas
    ensures Undoes(s, f) ==> r.canvas == r.backup
  {
    r := HandleInput(s, f, trig);
    if r.needsApply && now - r.lastApplyTime > ApplyInterval {
      r := r.(displayed := r.canvas, needsApply := false, lastApplyTime := now);
    }
  }

  /** A press on the canvas without `Ctrl+C`: it backs up the canvas as it was. */
  predicate Presses(s: Paint, f: Frame)
  {
    OnCanvas(s, f.pointer) && f.down && !(f.ctrl && C in f.keys)
  }

  /** A frame on the canvas that draws freehand and leaves the stroke on: a press with a
      stroke tool, or a drag while a stroke is on. Its paint waits for the batched apply. */
  predicate Strokes(s: Paint, f: Frame)
  {
    OnCanvas(s, f.pointer) && !f.up && ((f.down && s.tool.StartsStroke()) || (!f.down && f.held && s.drawing))
  }

  /** `Ctrl+Z` without `Ctrl+C` with the pointer on the canvas, where shortcuts are read. */
  predicate Undoes(s: Paint, f: Frame)
  {
    OnCanvas(s, f.pointer) && f.ctrl && Z in f.keys && C !in f.keys
  }

  /** A frame that can overwrite the backup: a press, or `Ctrl+C`. */
  predicate BacksUp(f: Frame)
  {
    f.down || (f.ctrl && C in f.keys)
  }

  /** A stroke that is undone: a press, frames that neither press nor clear, and a final
      `Ctrl+Z` on the canvas. */
  predicate StrokeThenUndo(s: Paint, frames: seq<Frame>)
  {
    && 2 <= |frames|
    && Presses(s, frames[0])
    && (forall j :: 1 <= j < |frames| ==> !BacksUp(frames[j]))
    && Undoes(s, frames[|frames| - 1])
  }

  /** The frame loop: `Update` once per frame, at the given times. Across frames that neither
      press nor clear the backup survives, so a stroke followed by `Ctrl+Z` gives back the
      canvas from before the stroke. */
  method Run(s: Paint, frames: seq<Frame>, times: seq<int>, trig: Trig) returns (r: Paint)
    requires s.Valid() && |times| == |frames|
    ensures r.Valid() && SameShape(r.canvas, s.canvas)
    ensures s.Synced() ==> r.Synced()
    ensures (forall i :: 0 <= i < |frames| ==> !BacksUp(frames[i])) ==> r.backup == s.backup
    ensures StrokeThenUndo(s, frames) ==> r.canvas == s.canvas
  {
    r := s;
    var i := 0;
    while i < |frames|
      invariant 0 <= i <= |frames|
      invariant i == 0 ==> r == s
      invariant r.Valid() && SameShape(r.canvas, s.canvas)
      invariant s.Synced() ==> r.Synced()
      invariant (forall j :: 0 <= j < i ==> !BacksUp(frames[j])) ==> r.backup == s.backup
      invariant 1 <= i && Presses(s, frames[0]) && (forall j :: 1 <= j < i ==> !BacksUp(frames[j])) ==> r.backup == s.canvas
      invariant 1 <= i && Undoes(s, frames[i - 1]) ==> r.canvas == r.backup
    {
      r := Update(r, frames[i], times[i], trig);
      i := i + 1;
    }
  }
}

=== FILE: shapes.dfy ===
/** The drawing routines of PaintSimulator.cs: the tool dab `Draw`, the freehand `DrawLine`,
    and the shape outlines `DrawShapeLine`, `DrawRectangle` and `DrawCircle`. Each one only
    stamps discs, so each is characterised by the centres it stamps at. */
module Shapes {

  import opened Numbers
  import opened Colors
  import opened Pixels
  import opened Stamp
  import opened Bresenham
  import opened Tools

  /** The loop bound of `Draw`: twice the brush size for the eraser. */
  function DabSize(t: Tool, brush: int): int
  {
    if t == Eraser then 2 * brush else brush
  }

  /** The disc test of `Draw`: `size * size` for brush and eraser, the truncated
      `(brushSize * brushSize) / 4` for the pencil (the product is never negative, so C#'s
      truncating division and Dafny's agree). */
  function DabThreshold(t: Tool, brush: int): int
  {
    if t == Pencil then (brush * brush) / 4 else DabSize(t, brush) * DabSize(t, brush)
  }

  /** The eraser paints with the background colour, every other tool with the current one. */
  function DabColor(t: Tool, current: Color, background: Color): Color
  {
    if t == Eraser then background else current
  }

  lemma DabFitsItsLoops(t: Tool, brush: int)
    requires 0 <= brush
    ensures 0 <= DabSize(t, brush) && DabThreshold(t, brush) <= DabSize(t, brush) * DabSize(t, brush)
  {
    assert 0 <= brush * brush;
  }

  /** `Draw(pos)`: one dab of the current tool at the cell `at`. The source tests the tool
      inside its offset loops; the test does not depend on the offset, so it is hoisted. */
  method Draw(c: Canvas, tool: Tool, at: Cell, brush: int, current: Color, background: Color) returns (r: Canvas)
    requires c.Valid() && 0 <= brush
    ensures r.Valid() && SameShape(r, c)
    ensures tool == Brush ==> forall x, y :: c.InBounds(x, y) ==>
              r.Get(x, y) == if (x - at.x) * (x - at.x) + (y - at.y) * (y - at.y) <= brush * brush
                             then current else c.Get(x, y)
    ensures tool == Eraser ==> forall x, y :: c.InBounds(x, y) ==>
              r.Get(x, y) == if (x - at.x) * (x - at.x) + (y - at.y) * (y - at.y) <= (2 * brush) * (2 * brush)
                             then background else c.Get(x, y)
    ensures tool == Pencil ==> forall x, y :: c.InBounds(x, y) ==>
              r.Get(x, y) == if (x - at.x) * (x - at.x) + (y - at.y) * (y - at.y) <= (brush * brush) / 4
                             then current else c.Get(x, y)
    ensures tool.IsDab() ==> forall x, y :: c.InBounds(x, y) ==>
              r.Get(x, y) == if InDisc(x - at.x, y - at.y, DabThreshold(tool, brush))
                             then DabColor(tool, current, background) else c.Get(x, y)
    ensures !tool.IsDab() ==> r == c
  {
    var size := if tool == Eraser then brush * 2 else brush;
    var color := if tool == Eraser then background else current;
    DabFitsItsLoops(tool, brush);
    if tool == Brush || tool == Eraser {
      r := StampDisc(c, at.x, at.y, size, size * size, color);
    } else if tool == Pencil {
      r := StampDisc(c, at.x, at.y, size, (brush * brush) / 4, color);
    } else {
      r := c;
    }
  }

  /** The `while (true)` Bresenham loop of `DrawLine` and `DrawShapeLine`: a stamp at every
      cell of the walk, from the start cell to the end cell. */
  method StampWalk(c: Canvas, start: Cell, end: Cell, size: int, r2: int, col: Color) returns (r: Canvas)
    requires c.Valid()
    requires 0 <= size && r2 <= size * size
    ensures r.Valid() && SameShape(r, c)
    ensures forall x, y :: c.InBounds(x, y) ==>
              r.Get(x, y) == if Covered(x, y, Path(start, end), r2) then col else c.Get(x, y)
  {
    r := StampAlong(c, Path(start, end), size, r2, col);
  }

  /** `DrawLine(from, to)`: the freehand stroke segment, one `Draw` per cell of the walk.
      For a tool without a dab every `Draw` is a no-op. */
  method DrawLine(c: Canvas, tool: Tool, from: Cell, to: Cell, brush: int, current: Color, background: Color)
    returns (r: Canvas)
    requires c.Valid() && 0 <= brush
    ensures r.Valid() && SameShape(r, c)
    ensures tool.IsDab() ==> forall x, y :: c.InBounds(x, y) ==>
              r.Get(x, y) == if Covered(x, y, Path(from, to), DabThreshold(tool, brush))
                             then DabColor(tool, current, background) else c.Get(x, y)
    ensures !tool.IsDab() ==> r == c
    ensures from == to && tool.IsDab() ==> forall x, y :: c.InBounds(x, y) ==>
              r.Get(x, y) == if InDisc(x - from.x, y - from.y, DabThreshold(tool, brush))
                             then DabColor(tool, current, background) else c.Get(x, y)
  {
    if tool.IsDab() {
      DabFitsItsLoops(tool, brush);
      r := StampWalk(c, from, to, DabSize(tool, brush), DabThreshold(tool, brush), DabColor(tool, current, background));
      if from == to {
        PathOfPoint(from);
      }
    } else {
      r := c;
    }
  }

  /** `DrawShapeLine(start, end)`: a brush-thick line in the current colour, whatever the tool. */
  method DrawShapeLine(c: Canvas, start: Cell, end: Cell, brush: int, col: Color) returns (r: Canvas)
    requires c.Valid() && 0 <= brush
    ensures r.Valid() && SameShape(r, c)
    ensures forall x, y :: c.InBounds(x, y) ==>
              r.Get(x, y) == if Covered(x, y, Path(start, end), brush * brush) then col else c.Get(x, y)
  {
    r := StampWalk(c, start, end, brush, brush * brush, col);
  }

  /** Cell p lies on the border of the box [x1, x2] x [y1, y2]. */
  predicate OnOutline(p: Cell, x1: int, y1: int, x2: int, y2: int)
  {
    || (x1 <= p.x <= x2 && (p.y == y1 || p.y == y2))
    || (y1 <= p.y <= y2 && (p.x == x1 || p.x == x2))
  }

  /** The first loop of `DrawRectangle`: for x from `x` to `x2`, the top then the bottom cell. */
  function HorizontalEdges(x: int, x2: int, y1: int, y2: int): (centres: seq<Cell>)
    ensures forall p :: p in centres <==> x <= p.x <= x2 && (p.y == y1 || p.y == y2)
    decreases x2 - x + 1
  {
    if x > x2 then [] else [Cell(x, y1), Cell(x, y2)] + HorizontalEdges(x + 1, x2, y1, y2)
  }

  /** The second loop of `DrawRectangle`: for y from `y` to `y2`, the left then the right cell. */
  function VerticalEdges(y: int, y2: int, x1: int, x2: int): (centres: seq<Cell>)
    ensures forall p :: p in centres <==> y <= p.y <= y2 && (p.x == x1 || p.x == x2)
    decreases y2 - y + 1
  {
    if y > y2 then [] else [Cell(x1, y), Cell(x2, y)] + VerticalEdges(y + 1, y2, x1, x2)
  }

  /** The stamp centres of `DrawRectangle(a, b)`, in the source's order, after normalising
      the corners to min/max. They are exactly the border cells of the normalised box. */
  function OutlineCentres(a: Cell, b: Cell): (centres: seq<Cell>)
    ensures forall p :: p in centres <==>
              OnOutline(p, Min(a.x, b.x), Min(a.y, b.y), Max(a.x, b.x), Max(a.y, b.y))
  {
    var x1, x2 := Min(a.x, b.x), Max(a.x, b.x);
    var y1, y2 := Min(a.y, b.y), Max(a.y, b.y);
    HorizontalEdges(x1, x2, y1, y2) + VerticalEdges(y1, y2, x1, x2)
  }

  /** The outline does not depend on which corner is the anchor. */
  lemma OutlineCentresSymmetric(a: Cell, b: Cell)
    ensures OutlineCentres(a, b) == OutlineCentres(b, a)
  {
  }

  /** `DrawRectangle(start, end)`: a pixel takes the current colour exactly when it is within
      the brush disc of some border cell of the normalised box. */
  method DrawRectangle(c: Canvas, a: Cell, b: Cell, brush: int, col: Color) returns (r: Canvas)
    requires c.Valid() && 0 <= brush
    ensures r.Valid() && SameShape(r, c)
    ensures forall x, y :: c.InBounds(x, y) ==>
              r.Get(x, y) == if (exists e :: OnOutline(e, Min(a.x, b.x), Min(a.y, b.y), Max(a.x, b.x), Max(a.y, b.y))
                                            && InDisc(x - e.x, y - e.y, brush * brush))
                             then col else c.Get(x, y)
  {
    r := StampAlong(c, OutlineCentres(a, b), brush, brush * brush, col);
  }

  /** The float geometry of `DrawCircle` that the model does not compute:
      `radius(center, edge)` stands for `(int)Vector2.Distance` between the two positions,
      here known only by their cells, and `offset(r, i, n)` is
      `((int)(r * Cos(a)), (int)(r * Sin(a)))` for the angle a = i * 360 / n degrees. */
  datatype Trig = Trig(radius: (Cell, Cell) -> nat, offset: (nat, nat, nat) -> Cell)

  /** `numPoints = radius * 4`, raised to 360 when smaller. */
  function CircleSteps(radius: nat): (n: nat)
    ensures n >= 360 && n >= 4 * radius
    ensures n == 360 || n == 4 * radius
  {
    var n := radius * 4;
    if n < 360 then 360 else n
  }

  /** The stamp centres of `DrawCircle`: one per angular step, in order. */
  function CircleCentres(centre: Cell, radius: nat, trig: Trig): (centres: seq<Cell>)
    ensures |centres| == CircleSteps(radius)
    ensures forall i :: 0 <= i < |centres| ==>
              centres[i] == Cell(centre.x + trig.offset(radius, i, |centres|).x,
                                 centre.y + trig.offset(radius, i, |centres|).y)
  {
    var n := CircleSteps(radius);
    seq(n, i requires 0 <= i < n =>
      Cell(centre.x + trig.offset(radius, i, n).x, centre.y + trig.offset(radius, i, n).y))
  }

  /** `DrawCircle(center, edge)`: a brush-thick outline stamped at every angular step. */
  method DrawCircle(c: Canvas, centre: Cell, edge: Cell, brush: int, col: Color, trig: Trig) returns (r: Canvas)
    requires c.Valid() && 0 <= brush
    ensures r.Valid() && SameShape(r, c)
    ensures forall x, y :: c.InBounds(x, y) ==>
              r.Get(x, y) == if Covered(x, y, CircleCentres(centre, trig.radius(centre, edge), trig), brush * brush)
                             then col else c.Get(x, y)
  {
    var radius := trig.radius(centre, edge);
    r := StampAlong(c, CircleCentres(centre, radius, trig), brush, brush * brush, col);
  }

  /** The stamp centres of the shape `tool` draws from `anchor` to `to`; none for other tools. */
  function ShapeCentres(tool: Tool, anchor: Cell, to: Cell, trig: Trig): seq<Cell>
  {
    match tool
    case Line => Path(anchor, to)
    case Rectangle => OutlineCentres(anchor, to)
    case Circle => CircleCentres(anchor, trig.radius(anchor, to), trig)
    case _ => []
  }

  /** The shape dispatch repeated at pointer-up and in the preview. */
  method DrawShape(c: Canvas, tool: Tool, anchor: Cell, to: Cell, brush: int, col: Color, trig: Trig)
    returns (r: Canvas)
    requires c.Valid() && 0 <= brush
    ensures r.Valid() && SameShape(r, c)
    ensures forall x, y :: c.InBounds(x, y) ==>
              r.Get(x, y) == if Covered(x, y, ShapeCentres(tool, anchor, to, trig), brush * brush)
                             then col else c.Get(x, y)
    ensures !tool.IsShape() ==> r == c
  {
    if tool == Line {
      r := DrawShapeLine(c, anchor, to, brush, col);
    } else if tool == Rectangle {
      r := DrawRectangle(c, anchor, to, brush, col);
      forall x, y | c.InBounds(x, y)
        ensures Covered(x, y, OutlineCentres(anchor, to), brush * brush) <==>
                exists e :: OnOutline(e, Min(anchor.x, to.x), Min(anchor.y, to.y), Max(anchor.x, to.x), Max(anchor.y, to.y))
                            && InDisc(x - e.x, y - e.y, brush * brush)
      {
      }
    } else if tool == Circle {
      r := DrawCircle(c, anchor, to, brush, col, trig);
    } else {
      r := c;
    }
  }
}

=== FILE: stamp.dfy ===
/** Disc stamping: the nested `for i in -size..size, for j in -size..size` loop that every
    drawing routine of PaintSimulator.cs repeats, and stamping along a sequence of centres. */
module Stamp {

  import opened Numbers
  import opened Colors
  import opened Pixels

  /** The offset (dx, dy) passes the test `dx * dx + dy * dy <= r2`. */
  predicate InDisc(dx: int, dy: int, r2: int)
  {
    dx * dx + dy * dy <= r2
  }

  /** Pixel (x, y) lies in the disc of squared radius r2 about some centre in `centres`. */
  predicate Covered(x: int, y: int, centres: seq<Cell>, r2: int)
  {
    exists p :: p in centres && InDisc(x - p.x, y - p.y, r2)
  }

  /** When r2 <= size * size the square of offsets [-size, size]^2 walked by the loops
      contains the whole disc. */
  lemma DiscInsideBox(r2: int, size: int)
    requires 0 <= size && r2 <= size * size
    ensures forall dx, dy :: InDisc(dx, dy, r2) ==> -size <= dx <= size && -size <= dy <= size
  {
    forall dx, dy | InDisc(dx, dy, r2)
      ensures -size <= dx <= size && -size <= dy <= size
    {
      assert dx * dx >= 0 && dy * dy >= 0;
      SquareWithin(dx, size);
      SquareWithin(dy, size);
    }
  }

  /** One stamp: every in-canvas pixel whose offset from (cx, cy) is in the disc takes `col`,
      every other pixel keeps its colour. */
  method StampDisc(c: Canvas, cx: int, cy: int, size: int, r2: int, col: Color) returns (r: Canvas)
    requires c.Valid()
    requires 0 <= size && r2 <= size * size
    ensures r.Valid() && SameShape(r, c)
    ensures forall x, y :: c.InBounds(x, y) ==>
              r.Get(x, y) == if InDisc(x - cx, y - cy, r2) then col else c.Get(x, y)
  {
    DiscInsideBox(r2, size);
    r := c;
    var i := -size;
    while i <= size
      invariant -size <= i <= size + 1
      invariant r.Valid() && SameShape(r, c)
      invariant forall x, y :: c.InBounds(x, y) ==>
                  r.Get(x, y) == if InDisc(x - cx, y - cy, r2) && x - cx < i then col else c.Get(x, y)
    {
      var j := -size;
      while j <= size
        invariant -size <= j <= size + 1
        invariant r.Valid() && SameShape(r, c)
        invariant forall x, y :: c.InBounds(x, y) ==>
                    r.Get(x, y) == if InDisc(x - cx, y - cy, r2) && (x - cx < i || (x - cx == i && y - cy < j))
                                   then col else c.Get(x, y)
      {
        if i * i + j * j <= r2 {
          r := r.Plot(cx + i, cy + j, col);
        }
        j := j + 1;
      }
      i := i + 1;
    }
  }

  lemma CoveredSnoc(x: int, y: int, centres: seq<Cell>, p: Cell, r2: int)
    ensures Covered(x, y, centres + [p], r2) <==> Covered(x, y, centres, r2) || InDisc(x - p.x, y - p.y, r2)
  {
    if InDisc(x - p.x, y - p.y, r2) {
      assert p in centres + [p];
    }
    if Covered(x, y, centres, r2) {
      var q :| q in centres && InDisc(x - q.x, y - q.y, r2);
      assert q in centres + [q];
    }
  }

  /** One more stamp at `p` on a canvas painted wherever `centres` covers it gives the canvas
      painted wherever `centres + [p]` covers it. */
  lemma StampExtends(c: Canvas, before: Canvas, after: Canvas, centres: seq<Cell>, p: Cell, r2: int, col: Color)
    requires c.Valid() && before.Valid() && after.Valid() && SameShape(before, c) && SameShape(after, c)
    requires forall x, y :: c.InBounds(x, y) ==>
               before.Get(x, y) == if Covered(x, y, centres, r2) then col else c.Get(x, y)
    requires forall x, y :: before.InBounds(x, y) ==>
               after.Get(x, y) == if InDisc(x - p.x, y - p.y, r2) then col else before.Get(x, y)
    ensures forall x, y :: c.InBounds(x, y) ==>
              after.Get(x, y) == if Covered(x, y, centres + [p], r2) then col else c.Get(x, y)
  {
    forall x, y | c.InBounds(x, y)
      ensures after.Get(x, y) == if Covered(x, y, centres + [p], r2) then col else c.Get(x, y)
    {
      CoveredSnoc(x, y, centres, p, r2);
    }
  }

  /** Stamping one disc of colour `col` at each centre in turn. All stamps share the colour,
      so the result does not depend on their order: a pixel is painted exactly when some
      centre covers it. */
  method StampAlong(c: Canvas, centres: seq<Cell>, size: int, r2: int, col: Color) returns (r: Canvas)
    requires c.Valid()
    requires 0 <= size && r2 <= size * size
    ensures r.Valid() && SameShape(r, c)
    ensures forall x, y :: c.InBounds(x, y) ==>
              r.Get(x, y) == if Covered(x, y, centres, r2) then col else c.Get(x, y)
  {
    r := c;
    var k := 0;
    while k < |centres|
      invariant 0 <= k <= |centres|
      invariant r.Valid() && SameShape(r, c)
      invariant forall x, y :: c.InBounds(x, y) ==>
                  r.Get(x, y) == if Covered(x, y, centres[..k], r2) then col else c.Get(x, y)
    {
      var before := r;
      r := StampDisc(r, centres[k].x, centres[k].y, size, r2, col);
      StampExtends(c, before, r, centres[..k], centres[k], r2, col);
      assert centres[..k] + [centres[k]] == centres[..k + 1];
      k := k + 1;
    }
    assert centres[..k] == centres;
  }
}

=== FILE: tools.dfy ===
/** The eight tools of the `Tool` enum, plus the values `SetTool`'s unchecked cast
    `(Tool)toolIndex` can produce outside 0..7. */
module Tools {

  const ToolCount: int := 8

  datatype Tool =
    | Pencil | Brush | Eraser | Fill | Line | Rectangle | Circle | Eyedropper
    | Unnamed(index: int)
  {
    /** An unnamed tool carries an index no named tool has. */
    predicate Valid()
    {
      Unnamed? ==> !(0 <= index < ToolCount)
    }

    /** Line, Rectangle and Circle anchor on pointer-down and are previewed while held. */
    predicate IsShape()
    {
      this == Line || this == Rectangle || this == Circle
    }

    /** The tools `Draw` stamps a disc for; it writes nothing for any other tool. */
    predicate IsDab()
    {
      this == Pencil || this == Brush || this == Eraser
    }

    /** The tools that take the final `else` of pointer-down: they start a freehand stroke.
        Besides the dab tools this includes every unnamed tool. */
    predicate StartsStroke()
    {
      !IsShape() && this != Fill && this != Eyedropper
    }
  }

  /** The enum cast `(Tool)i`. */
  function FromIndex(i: int): (t: Tool)
    ensures t.Valid()
    ensures 0 <= i < ToolCount <==> !t.Unnamed?
  {
    if i == 0 then Pencil
    else if i == 1 then Brush
    else if i == 2 then Eraser
    else if i == 3 then Fill
    else if i == 4 then Line
    else if i == 5 then Rectangle
    else if i == 6 then Circle
    else if i == 7 then Eyedropper
    else Unnamed(i)
  }

  /** The underlying integer of an enum value, the inverse of the cast. */
  function IndexOf(t: Tool): int
  {
    match t
    case Pencil => 0
    case Brush => 1
    case Eraser => 2
    case Fill => 3
    case Line => 4
    case Rectangle => 5
    case Circle => 6
    case Eyedropper => 7
    case Unnamed(i) => i
  }

  lemma IndexRoundTrip(i: int)
    ensures IndexOf(FromIndex(i)) == i
  {
  }

  lemma ToolRoundTrip(t: Tool)
    requires t.Valid()
    ensures FromIndex(IndexOf(t)) == t
  {
  }
}
